=== FILE: README.md ===
# getsource: a Dafny model of the reference extractor and downloader

`getsource.py` reads a PHP file and picks out the lines that contain a keyword such as
`include` or `require`. It cuts a quoted file name out of each such line and prefixes it with
the server's base URL. It then rebuilds the directory part of the name locally, and downloads
the file unless it is already there. Failures are appended to two log files: `not_parsed.txt`
for lines that yield no path, and `bad_requests.txt` for downloads that gave up.

This project models that chain as pure functions over strings, sequences and one immutable
state record. It proves what each step promises.

- `Text`: the Python string operations the script relies on: `in`, `replace(' ', '')` and
  `split`. `IndexOf` (the first index of a character) is a helper that defines `split`, and
  `Join` is the reference definition that `split` is proved against; neither is a script
  operation.
- `Matcher`: the match list `[line for line in file if word in line]`, as a function and as a loop.
- `Parser`: `parse_string`. Its outcome is an accepted path, a rejection with its log entry,
  or one of the two `IndexError`s the code can raise.
- `Scheme`: adding `http://` to the base URL, and building the request URL.
- `Fetch`: `get_request`'s bounded retry and `download_file`'s chunk loop. The network is a
  function from the request number to a response.
- `FileSystem`: the state record, the descent that creates missing directories, and the
  resolution of a name given to `open`. The record holds the directories, the files, the
  working directory, the requests issued, the lines appended to each log, and the bytes
  written into each file.
- `Entry`: one pass of `main`'s loop body. This covers opening `not_parsed.txt`, the path
  split, the exists check, the download and the return to `orig_dir`.
- `Driver`: `main`'s loops over the keywords and over the match list.
- `Examples`: proved outcomes for concrete lines, including `include('./core/config.php');`.

The model follows the code as written, including the places where it differs from a tidy
version:

- No leading `/` is ever added, so `config.php` stays `config.php`.
- Exactly one leading `.` is dropped. `../config.php` becomes `./config.php`, and its first
  piece `.` is skipped like every first piece.
- The literal is always cut at single quotes. A line whose only quotes are `"` crashes with
  `IndexError` (`Crash.QuoteSplitIndexError`), and so does an empty literal
  (`Crash.EmptyLiteralIndexError`).
- The literal `.` becomes the empty path. The caller skips it silently and logs nothing.
- `raise_for_status()` sits inside the `try`, so a 4xx or 5xx status is retried like a
  connection error. Any status outside 400-599 counts as success and its body is saved.
- An empty path component, as in `/a//b.php`, makes `os.mkdir('')` raise. A component that
  names an existing file makes `os.mkdir` raise. Both crashes end the run (`Crash.MkdirEmptyName`,
  `Crash.MkdirOverFile`). The components `.` and `..` move the working directory as the
  operating system does.
- The script keeps no tally of sent, unparsed and existing files; it only prints messages.
- Both logs are opened in append mode, so opening one creates it. `parse_string` opens
  `not_parsed.txt` on every call, before looking at the line, in the working directory, which
  is `orig_dir` then. So the log exists after the first matched line, even when nothing is
  rejected. `bad_requests.txt` is opened in the directory the descent reached, so a run keeps
  one such log per directory; each entry records the log it went to (`FileSystem.Logged`).
  A directory named like a log makes that `open` raise (`Crash.OpenFailed`).
- `download_file` gets `parsed` as the name to open, not the file name inside the directory
  it just reached. `open` resolves it from the reached directory, or from the file system root
  when it starts with `/`. Whenever that lands on the file the exists check looked for, a
  second pass over the same path sends no request and changes nothing
  (`Entry.SavedWhereCheckedSettles`). It lands there, among others, for:
  - a path without `/` (`Entry.PlainPathSettles`);
  - `./name`, which the literal `../name` becomes (`Entry.DotPathOpensChecked`);
  - `../d/f`, which the literal `.../d/f` becomes: `open` climbs out of `d` and back in
    (`Entry.DotDotPathOpensChecked`);
  - an absolute path when `orig_dir` is the file system root (`Examples.ConfigLineDownloads`).

  In most other cases the two differ. From `/srv`, `/core/config.php` is checked as
  `/srv/core/config.php` but written to `/core/config.php`, and that write fails when `/core`
  is missing (`Examples.AbsolutePathMissesTree`). `a/b.php` enters no directory, is checked as
  `b.php` and is written as `a/b.php`. Including `config.php` twice sends one request
  (`Examples.RepeatedIncludeRequestedOnce`).
- Log entries are modelled without the `'\n'` the code appends to each one. A matched line keeps
  its own line end, as Python yields it, so a literal without a closing quote runs to that end.

## Model

| member | source | states |
|---|---|---|
| Text.Contains | getsource.py:150 | `word in line` on strings: the keyword occurs as a contiguous run starting at some position of the line |
| Text.RemoveSpaces | getsource.py:85 | the result has no space, and every other character occurs in it exactly when it occurs in the line |
| Text.RemoveSpacesAppend | getsource.py:85 | space removal works piece by piece: stripping a concatenation is concatenating the stripped pieces |
| Text.Split | getsource.py:88 | the pieces contain no separator, there is exactly one piece iff the separator is absent, and joining the pieces gives the string back |
| Text.SplitJoin | getsource.py:173 | splitting a join of separator-free pieces returns those pieces, so `Join` is a reference definition that `split` inverts |
| Matcher.Matches | getsource.py:150 | a line is in the match list iff it is a line of the file containing the keyword as a substring |
| Matcher.MatchesAppend | getsource.py:150 | the match list of a concatenation is the concatenation of the match lists, so file order is kept |
| Matcher.MatchesMultiplicity | getsource.py:150 | each matching line occurs in the match list as often as in the file; non-matching lines not at all |
| Matcher.MatchLines | getsource.py:146-155 | the loop over the file builds exactly the match list |
| Parser.Literal | getsource.py:88 | the candidate is the text after the first single quote up to the next single quote, or to the end when there is none |
| Parser.ParseString | getsource.py:76-109 | no quote: rejected with the space-stripped line as the entry; only double quotes: IndexError; empty literal: IndexError; otherwise at most one leading '.' is removed and the result is accepted iff it is neither `/php` nor ends in `/`, else it is the log entry |
| Parser.QuotedPathParses | getsource.py:85-109 | a path written in single quotes, behind at most one '.', with or without the closing quote, is accepted as exactly that path |
| Scheme.WithScheme | getsource.py:158-159 | the result starts with `http`; it equals the base iff the base already starts with `http`, and otherwise `http://` is the only thing added |
| Scheme.WithSchemeIdempotent | getsource.py:158-159 | prefixing again changes nothing, so redoing it for each keyword is harmless |
| Scheme.RequestUrl | getsource.py:171 | the request URL is the base followed directly by the parsed path, with no separator |
| Fetch.RaisesForStatus | getsource.py:68 | `raise_for_status()` raises exactly for statuses 400 to 599 |
| Fetch.AnswersAt | getsource.py:66-69 | a request is usable iff it received a response and that response's status does not raise |
| Fetch.GetRequest | getsource.py:61-73 | at most 5 attempts; a response is returned iff one of those requests succeeded, and it is the first one; otherwise all 5 failed and `False` is returned |
| Fetch.GetRequestGivesUp | getsource.py:63-65 | five failures in a row give `False` after exactly five requests |
| Fetch.WriteChunks | getsource.py:125-131 | the saved bytes are the non-empty chunks concatenated in order, which are all bytes received |
| Fetch.ConcatNonEmpty | getsource.py:128 | skipping empty chunks loses no byte |
| FileSystem.IsFile | getsource.py:181 | `os.path.isfile(name)` in the working directory: the name resolves from there to an existing file; the empty name names no file |
| FileSystem.Enter | getsource.py:177-178 | the empty name crashes `os.mkdir`; otherwise the step crashes iff the name is an existing file and not a directory, and a finished step adds that directory if missing and moves into it |
| FileSystem.Walk | getsource.py:175-178 | a finished descent ends where path resolution of the names leads; an empty name crashes; directories are only added, never where a file is; nothing else changes; the tree stays well formed |
| FileSystem.WalkBuildsRoute | getsource.py:175-178 | for ordinary names the descent ends at the start plus the names and adds exactly the missing directories on that route, so an existing route creates nothing |
| FileSystem.WalkAgain | getsource.py:175-178 | repeating a descent from the same directory once its directories exist creates nothing and ends where the first descent ended |
| FileSystem.Lookup | getsource.py:125 | following the directory part of a name given to `open` from an existing directory ends at an existing directory |
| FileSystem.OpenTarget | getsource.py:125 | a file `open` creates or reopens is never a directory, its last component is the name's last piece, and it sits in an existing directory |
| FileSystem.OpenInCwd | getsource.py:82 | a name without '/' is opened in the working directory, and the open fails iff the name is empty, `.`, `..` or an existing directory |
| FileSystem.LookupPlain | getsource.py:125 | for ordinary names the lookup succeeds iff every directory on the route exists, and then ends at the start plus the names |
| FileSystem.OpenAbsolute | getsource.py:125 | `/d1/.../dn/f` opens from the file system root whatever the working directory: it succeeds iff `d1 .. dn` all exist there and `f` is not a directory, and then names exactly `d1/.../dn/f` |
| Entry.BadRequestEntry | getsource.py:117 | the bad-request line is `URL: `, the URL, a tab, `Filepath: ` and the path argument |
| Entry.DownloadFile | getsource.py:112-131 | only requests, files, the bad-request logs and saved bodies change; 1 to 5 requests, all to the URL; at most one entry, to the `bad_requests.txt` of the working directory; only new files appear, never where a directory is; the tree stays well formed |
| Entry.DownloadGivesUp | getsource.py:114-119 | when all five attempts fail: five requests, exactly one `URL: … Filepath: …` entry in the working directory's `bad_requests.txt`, which now exists, and nothing saved; the only crash is a directory named like the log |
| Entry.DownloadSaves | getsource.py:114-131 | when request k is the first of the five to succeed: the request log ends with it, nothing is logged, and the file `open(filepath, 'wb')` designates now exists and holds exactly that response's body; it crashes iff that `open` does |
| Entry.FileName | getsource.py:173-174 | the file name has no `/` and is the path's suffix after its last `/` (the whole path when there is none) |
| Entry.DirsToEnter | getsource.py:175 | the directories entered contain no `/` |
| Entry.PlanCoversPath | getsource.py:173-175 | the first piece, the directories entered and the file name join back to the path; a path without `/` enters nothing |
| Entry.PlanSkipsFirstPiece | getsource.py:173-175 | for `first/d1/…/dn/f` the directories entered are exactly `d1 … dn` in order and the file is `f`, so the first piece is always skipped |
| Entry.ProcessPath | getsource.py:170-188 | a crashing descent crashes the entry, and otherwise it can only crash in the download of a missing file; afterwards the working directory is the starting one again; the rejection log is untouched; up to 5 requests to base+path; at most one bad-request entry, in the reached directory's log |
| Entry.RequestIffMissing | getsource.py:180-188 | a request is sent iff the file is missing from the reached directory; an existing file leaves only the created directories behind |
| Entry.MissingFileDownloads | getsource.py:185-188 | for a missing file the entry crashes iff the download does, and otherwise ends as the download does, back in `orig_dir` |
| Entry.DotPathOpensChecked | getsource.py:173-187 | `./name` enters no directory, names the file `name`, and its `open` succeeds iff `name` is an ordinary name and not a directory, landing on the very file `os.path.isfile(name)` checks |
| Entry.DotDotPathOpensChecked | getsource.py:173-187 | `../d/f` enters `d`, names `f`, and from the reached directory its `open` succeeds iff `f` is an ordinary name and not a directory, landing on the very file `os.path.isfile(f)` checks there |
| Entry.SavedWhereCheckedSettles | getsource.py:173-188 | whenever the download is written onto the file the exists check looked for and did not give up, a second pass over the same path sends no request and leaves the state unchanged |
| Entry.PlainPathSettles | getsource.py:173-188 | for a path without '/' whose download did not give up, a second pass over it finds the file, sends nothing and changes nothing |
| Entry.LogBadRequest | getsource.py:117 | the bad-request `open` succeeds iff no directory named `bad_requests.txt` is in the working directory; then the log exists there and gains exactly this entry, and nothing else changes |
| Entry.SaveBody | getsource.py:125-131 | the write succeeds iff `open` resolves the name; then that file exists and holds exactly the concatenated chunks, and nothing else changes |
| Entry.OpenNotParsed | getsource.py:82 | opening `not_parsed.txt` succeeds iff no directory of that name is in the working directory, and then only adds that file |
| Entry.Rejection | getsource.py:88-107 | a call of `parse_string` appends at most one entry, and one exactly when it rejects the line |
| Entry.ProcessLine | getsource.py:164-188 | every promise of a step: cwd restored, logs and requests only appended to, requests under the base, files and directories only added; `not_parsed.txt` gains exactly the line's rejection and exists afterwards; a parse crash propagates; an accepted path sends up to 5 requests to base+path and logs at most one bad request |
| Entry.AfterParse | getsource.py:167-188 | after `parse_string` returns: an IndexError is the crash; the rejection log gains exactly the rejection; an accepted path sends up to 5 requests to base+path and logs at most one bad request; the step keeps every promise of `Advances` |
| Entry.LineOutcome | getsource.py:76-109 | a directory named `not_parsed.txt` makes the pass crash; otherwise a parse crash is that crash, a rejection appends exactly its entry and only creates the log, and the empty path only creates the log |
| Driver.ProcessMatches | getsource.py:162-188 | over a whole match list the working directory ends at `orig_dir`; the records of requests, rejections and bad-request entries only grow at the end; every new request goes under the base; files and directories are only added |
| Driver.MatchesLog | getsource.py:164-168 | over a match list `not_parsed.txt` gains exactly the entries of the rejected lines, in order |
| Driver.NoneRejected | getsource.py:88-107 | over a match list no entry is logged iff no line is rejected |
| Driver.AllRejected | getsource.py:88-107 | over a match list one entry per line is logged iff every line is rejected |
| Driver.MatchesCreateLog | getsource.py:82 | `not_parsed.txt` exists in `orig_dir` once a match list with a line has been processed |
| Driver.Run | getsource.py:146-190 | over all keywords the working directory is restored, the lines appended to each log and the requests only grow, files and directories are only added, the tree stays well formed, and every request goes under the base with `http` scheme |
| Driver.RunLog | getsource.py:146-168 | over a run `not_parsed.txt` gains the rejected lines of each keyword's match list, keyword after keyword |
| Examples.ConfigLineParses | getsource.py:85-109 | `include('./core/config.php');` yields `/core/config.php` |
| Examples.ConfigUrl | getsource.py:158-171 | base `example.com` gives the URL `http://example.com/core/config.php` |
| Examples.ConfigPlan | getsource.py:173-175 | `/core/config.php` enters `core` and names the file `config.php` |
| Examples.ConfigLineDownloads | getsource.py:164-188 | from the root of an empty tree the line creates `not_parsed.txt` and `core`, sends one request and saves the whole body as `/core/config.php` |
| Examples.AbsolutePathMissesTree | getsource.py:170-188 | from `/srv`, the same line creates `/srv/core` but the write to `/core/config.php` raises, since `/core` does not exist |
| Examples.RepeatedIncludeRequestedOnce | getsource.py:164-188 | `include('config.php');` twice from the root of an empty tree: the first pass saves the file in the root, the second finds it, one request in all |
| Examples.CommentIsLogged | getsource.py:85-92 | a comment mentioning the keyword is logged once, with its spaces removed |
| Examples.DoubleQuotesCrash | getsource.py:88 | a line quoted only with `"` crashes with IndexError |
| Examples.EmptyLiteralCrashes | getsource.py:95 | `include('')` crashes with IndexError |
| Examples.LoneDotIsSkipped | getsource.py:95-109 | the literal `.` yields the empty path, which is skipped without any log entry |
| Examples.DirectoryIsLogged | getsource.py:104-107 | `include('lib/')` is logged as `lib/` |
| Examples.ParentReferenceLosesOneDot | getsource.py:95 | `../config.php` loses only one '.' |
| Examples.TwoKeywordsTwoPasses | getsource.py:146-150 | with keywords `include` and `db`, a comment mentioning both is processed once per keyword and logged twice |
| Examples.DotPathEntersNothing | getsource.py:173-175 | `./config.php` enters no directory and names the file `config.php` |

## Left out

- HTTP itself (`requests.get`, streaming, headers): each request is one value of the network
  function, a response with a status and body chunks, or a connection error.
- `sleep(5)` between attempts: timing only.
- The progress bar (getsource.py:121-123, 130, 132-135): display only. It reads `Content-Length`.
  A missing header raises `KeyError`, and a `Content-Length` of 0 with a non-empty chunk divides
  by zero. Neither crash is modelled.
- The real file system: `os.mkdir`, `os.chdir`, `os.path.isdir`/`isfile` and `open` act on the
  state record. Permissions, symbolic links and other file kinds are not modelled, so `open`
  fails only on a missing directory or a directory in the file's place.
- The logs are modelled as records of the lines appended to them (`State.notParsed`,
  `State.badRequests`), kept apart from file contents. A download whose `open(parsed, 'wb')`
  lands on an existing log empties that file, for example the path `a/bad_requests.txt` run
  from a directory that holds `a` but no `bad_requests.txt` of its own. The model keeps the log record and only records the body
  under `State.written`.
- Driver.Run: it takes the scanned file as a fixed sequence of lines. The script re-reads the
  file for every keyword (getsource.py:150), so a download that overwrites the scanned file
  changes the match lists of later keywords; that is not modelled.
- FileSystem.Walk: its contract states that an empty name crashes, but not the converse
  condition for the `os.mkdir` over a file crash. That condition is stated per step by
  `FileSystem.Enter`.
- Driver.ProcessMatches, Driver.Run: the exact content of `not_parsed.txt` is not in their own
  contracts; `Driver.MatchesLog` and `Driver.RunLog` state it for them.
- Command-line parsing, the required-argument and input-file checks, and `sys.exit`
  (getsource.py:56-58, 142-143, 197-212): plumbing around the core.
- The recursive mode (getsource.py:218-230), which walks the tree, filters by size and
  collects garbage: an I/O-driven loop around `main`.
- All printed messages.
- Reading the file: the model takes the file as its sequence of lines, each with its line end.

=== FILE: driver.dfy ===
/** `main`: every keyword in turn, every matching line in file order. */
module Driver {
  import opened Outcomes
  import opened Matcher
  import opened Parser
  import opened Scheme
  import opened Fetch
  import opened FileSystem
  import opened Entry

  /** The entries `parse_string` appends to `not_parsed.txt` for the lines of `matchlist`,
      in order: one per rejected line, none for the others. */
  function Rejected(matchlist: seq<string>): (log: seq<string>)
    ensures |log| <= |matchlist|
    decreases |matchlist|
  {
    if matchlist == [] then []
    else
      Rejection(ParseString(matchlist[0])) + Rejected(matchlist[1..])
  }

  /** The log stays empty iff no line of the match list is rejected. */
  lemma {:induction false} NoneRejected(matchlist: seq<string>)
    ensures Rejected(matchlist) == [] <==> forall i :: 0 <= i < |matchlist| ==> !ParseString(matchlist[i]).NotParsed?
    decreases |matchlist|
  {
    if matchlist != [] {
      var rest := matchlist[1..];
      NoneRejected(rest);
      assert forall i :: 1 <= i < |matchlist| ==> matchlist[i] == rest[i - 1];
      assert Rejected(matchlist) == Rejection(ParseString(matchlist[0])) + Rejected(rest);
    }
  }

  /** The log gains one entry per line iff every line of the match list is rejected. */
  lemma {:induction false} AllRejected(matchlist: seq<string>)
    ensures |Rejected(matchlist)| == |matchlist| <==> forall i :: 0 <= i < |matchlist| ==> ParseString(matchlist[i]).NotParsed?
    decreases |matchlist|
  {
    if matchlist != [] {
      var rest := matchlist[1..];
      AllRejected(rest);
      assert forall i :: 1 <= i < |matchlist| ==> matchlist[i] == rest[i - 1];
      assert Rejected(matchlist) == Rejection(ParseString(matchlist[0])) + Rejected(rest);
    }
  }

  /** The same over a whole run: the file is scanned once per keyword, keywords in order. */
  function RejectedOver(words: seq<string>, lines: seq<string>): seq<string>
    decreases |words|
  {
    if words == [] then [] else Rejected(Matches(lines, words[0])) + RejectedOver(words[1..], lines)
  }

  /** `for word_match in matchlist:` with `orig_dir` the working directory on entry. */
  function ProcessMatches(st: State, net: Network, base: string, matchlist: seq<string>): (r: Outcome<State>)
    ensures r.Done? ==> Advances(st, r.value, base)
    decreases |matchlist|
  {
    if matchlist == [] then Done(st)
    else
      match ProcessLine(st, net, base, matchlist[0])
      case Crashed(c) => Crashed(c)
      case Done(next) =>
        var r := ProcessMatches(next, net, base, matchlist[1..]);
        if r.Done? then
          AdvancesTransitive(st, next, r.value, base);
          r
        else r
  }

  /** `main(base_url, words, file_scan)` over the lines of the scanned file. The scheme is
      added to the base URL the first time a keyword has matches, and kept for later keywords. */
  function Run(st: State, net: Network, base: string, words: seq<string>, lines: seq<string>): (r: Outcome<State>)
    ensures r.Done? ==> Advances(st, r.value, WithScheme(base))
    decreases |words|
  {
    if words == [] then Done(st)
    else
      var matchlist := Matches(lines, words[0]);
      if |matchlist| == 0 then
        Run(st, net, base, words[1..], lines)
      else
        var url := WithScheme(base);
        WithSchemeIdempotent(base);
        match ProcessMatches(st, net, url, matchlist)
        case Crashed(c) => Crashed(c)
        case Done(next) =>
          var r := Run(next, net, url, words[1..], lines);
          if r.Done? then
            AdvancesTransitive(st, next, r.value, url);
            r
          else r
  }

  /** Over a match list, `not_parsed.txt` gains exactly the entries of the rejected lines, in
      order. */
  lemma {:induction false} MatchesLog(st: State, net: Network, base: string, matchlist: seq<string>)
    ensures ProcessMatches(st, net, base, matchlist).Done? ==>
              ProcessMatches(st, net, base, matchlist).value.notParsed == st.notParsed + Rejected(matchlist)
    decreases |matchlist|
  {
    if matchlist != [] && ProcessLine(st, net, base, matchlist[0]).Done? {
      var next := ProcessLine(st, net, base, matchlist[0]).value;
      var rest := ProcessMatches(next, net, base, matchlist[1..]);
      assert ProcessMatches(st, net, base, matchlist) == rest;
      MatchesLog(next, net, base, matchlist[1..]);
      if rest.Done? {
        var head := Rejection(ParseString(matchlist[0]));
        assert next.notParsed == st.notParsed + head;
        assert Rejected(matchlist) == head + Rejected(matchlist[1..]);
        assert rest.value.notParsed == (st.notParsed + head) + Rejected(matchlist[1..]);
      }
    }
  }

  /** `not_parsed.txt` exists in the starting directory once one line has been processed. */
  lemma MatchesCreateLog(st: State, net: Network, base: string, matchlist: seq<string>)
    requires matchlist != []
    ensures ProcessMatches(st, net, base, matchlist).Done? ==>
              st.cwd + [NotParsedLog] in ProcessMatches(st, net, base, matchlist).value.files
  {
    if ProcessLine(st, net, base, matchlist[0]).Done? {
      var next := ProcessLine(st, net, base, matchlist[0]).value;
      assert ProcessMatches(st, net, base, matchlist) == ProcessMatches(next, net, base, matchlist[1..]);
    }
  }

  /** Over a whole run, `not_parsed.txt` gains the rejected lines of every keyword's match
      list, keyword after keyword: a line mentioning two keywords is seen twice. */
  lemma {:induction false} RunLog(st: State, net: Network, base: string, words: seq<string>, lines: seq<string>)
    ensures Run(st, net, base, words, lines).Done? ==>
              Run(st, net, base, words, lines).value.notParsed == st.notParsed + RejectedOver(words, lines)
    decreases |words|
  {
    if words != [] {
      var matchlist := Matches(lines, words[0]);
      RunUnfolds(st, net, base, words, lines);
      if |matchlist| == 0 {
        RunLog(st, net, base, words[1..], lines);
      } else if ProcessMatches(st, net, WithScheme(base), matchlist).Done? {
        var next := ProcessMatches(st, net, WithScheme(base), matchlist).value;
        MatchesLog(st, net, WithScheme(base), matchlist);
        RunLog(next, net, WithScheme(base), words[1..], lines);
        LogsCompose(st.notParsed, next.notParsed, Rejected(matchlist), RejectedOver(words[1..], lines));
      }
    }
  }

  /** Regrouping a log extended twice; kept apart so that RunLog's proof stays small. */
  lemma LogsCompose(before: seq<string>, middle: seq<string>, first: seq<string>, rest: seq<string>)
    requires middle == before + first
    ensures middle + rest == before + (first + rest)
  {
  }

  /** One keyword of `main`: skipped without matches, otherwise its match list is processed
      under the prefixed base and the remaining keywords follow. */
  lemma RunUnfolds(st: State, net: Network, base: string, words: seq<string>, lines: seq<string>)
    requires words != []
    ensures var matchlist := Matches(lines, words[0]);
            && RejectedOver(words, lines) == Rejected(matchlist) + RejectedOver(words[1..], lines)
            && (matchlist == [] ==> Rejected(matchlist) == [] && Run(st, net, base, words, lines) == Run(st, net, base, words[1..], lines))
            && (matchlist != [] && ProcessMatches(st, net, WithScheme(base), matchlist).Done? ==>
                  Run(st, net, base, words, lines)
                  == Run(ProcessMatches(st, net, WithScheme(base), matchlist).value, net, WithScheme(base), words[1..], lines))
  {
  }
}

=== FILE: entry.dfy ===
/** One iteration of `main`'s loop over the match list, with `download_file`. */
module Entry {
  import opened Outcomes
  import opened Text
  import opened Parser
  import opened Scheme
  import opened Fetch
  import opened FileSystem

  /** The two logs, opened by name in whatever directory is current at the time. */
  const NotParsedLog: string := "not_parsed.txt"
  const BadRequestsLog: string := "bad_requests.txt"

  /** `after` is `before` followed by at most `max` copies of `item`. */
  predicate Extends<T(==)>(before: seq<T>, after: seq<T>, item: T, max: nat)
  {
    && |before| <= |after| <= |before| + max
    && StartsWith(after, before)
    && forall k :: |before| <= k < |after| ==> after[k] == item
  }

  /** What any number of passes of the loop body may do to the state: the working directory
      is back where it was, directories and files are only added, the tree stays well formed,
      every request goes under `base`, the records of lines appended to the logs only grow,
      and no saved file goes. */
  predicate Advances(before: State, after: State, base: string)
  {
    && after.cwd == before.cwd
    && before.dirs <= after.dirs
    && before.files <= after.files
    && (WellFormed(before) ==> WellFormed(after))
    && StartsWith(after.requests, before.requests)
    && (forall k :: |before.requests| <= k < |after.requests| ==> StartsWith(after.requests[k], base))
    && StartsWith(after.notParsed, before.notParsed)
    && StartsWith(after.badRequests, before.badRequests)
    && before.written.Keys <= after.written.Keys
  }

  lemma AdvancesTransitive(a: State, b: State, c: State, base: string)
    requires Advances(a, b, base) && Advances(b, c, base)
    ensures Advances(a, c, base)
  {
    assert c.requests[..|b.requests|][..|a.requests|] == c.requests[..|a.requests|];
    assert c.notParsed[..|b.notParsed|][..|a.notParsed|] == c.notParsed[..|a.notParsed|];
    assert c.badRequests[..|b.badRequests|][..|a.badRequests|] == c.badRequests[..|a.badRequests|];
  }

  /** The line `download_file` appends to `bad_requests.txt`, without its line end. */
  function BadRequestEntry(url: string, filepath: string): string
  {
    "URL: " + url + "\tFilepath: " + filepath
  }

  /** `download_file(url, filepath)`: when `get_request` gives up, a line goes to the
      `bad_requests.txt` of the working directory; otherwise the body is saved into the file
      `open(filepath, 'wb')` designates. */
  function DownloadFile(st: State, net: Network, url: string, filepath: string): (r: Outcome<State>)
    ensures r.Done? ==>
              r.value.(requests := st.requests, files := st.files, badRequests := st.badRequests,
                       written := st.written) == st
    ensures r.Done? ==> Extends(st.requests, r.value.requests, url, MaxAttempts) && |r.value.requests| > |st.requests|
    ensures r.Done? ==>
              Extends(st.badRequests, r.value.badRequests,
                      Logged(st.cwd + [BadRequestsLog], BadRequestEntry(url, filepath)), 1)
    ensures r.Done? ==> st.files <= r.value.files && (r.value.files - st.files) !! st.dirs
    ensures r.Done? && WellFormed(st) ==> WellFormed(r.value)
  {
    var got := GetRequest(net, |st.requests|, 0);
    var sent := st.requests + seq(got.attempts, _ => url);
    var saved := match got.response
                 case None => LogBadRequest(st, url, filepath)
                 case Some(resp) => SaveBody(st, filepath, resp.chunks);
    match saved
    case Crashed(c) => Crashed(c)
    case Done(after) => Done(after.(requests := sent))
  }

  /** When all five attempts fail, five requests are sent, one line goes to the working
      directory's `bad_requests.txt` and nothing is saved; only a directory named like the log
      makes this crash. */
  lemma DownloadGivesUp(st: State, net: Network, url: string, filepath: string)
    requires forall k :: |st.requests| <= k < |st.requests| + MaxAttempts ==> !AnswersAt(net, k)
    ensures var r := DownloadFile(st, net, url, filepath);
            && (r.Done? <==> st.cwd + [BadRequestsLog] !in st.dirs)
            && (r.Done? ==>
                  && |r.value.requests| == |st.requests| + MaxAttempts
                  && r.value.badRequests == st.badRequests + [Logged(st.cwd + [BadRequestsLog], BadRequestEntry(url, filepath))]
                  && r.value.files == st.files + {st.cwd + [BadRequestsLog]}
                  && r.value.written == st.written)
  {
    GetRequestGivesUp(net, |st.requests|);
  }

  /** When request `k` is the first of the five to succeed, the request log ends with it,
      nothing is logged, and the file `open(filepath, 'wb')` designates holds its whole body;
      the download crashes exactly when that `open` does. */
  lemma DownloadSaves(st: State, net: Network, url: string, filepath: string, k: nat)
    requires k < |st.requests| + MaxAttempts && FirstAnswerAt(net, |st.requests|, k)
    ensures var r := DownloadFile(st, net, url, filepath);
            && (r.Done? <==> OpenTarget(st, filepath).Done?)
            && (r.Done? ==>
                  && |r.value.requests| == k + 1
                  && r.value.badRequests == st.badRequests
                  && r.value.files == st.files + {OpenTarget(st, filepath).value}
                  && r.value.written == st.written[OpenTarget(st, filepath).value := Concat(net(k).chunks)])
  {
    var got := GetRequest(net, |st.requests|, 0);
    assert AnswersAt(net, k);
    assert got.response.Some?;
    assert |st.requests| + got.attempts - 1 == k;
  }

  /** `download_file`'s failure branch: one line goes to the `bad_requests.txt` of the
      working directory, which fails only when a directory of that name is in the way. */
  function LogBadRequest(st: State, url: string, filepath: string): (r: Outcome<State>)
    ensures r.Done? <==> st.cwd + [BadRequestsLog] !in st.dirs
    ensures r.Done? ==>
              r.value == st.(files := st.files + {st.cwd + [BadRequestsLog]},
                             badRequests := st.badRequests + [Logged(st.cwd + [BadRequestsLog], BadRequestEntry(url, filepath))])
  {
    OpenInCwd(st, BadRequestsLog);
    match OpenTarget(st, BadRequestsLog)
    case Crashed(c) => Crashed(c)
    case Done(log) =>
      Done(st.(files := st.files + {log}, badRequests := st.badRequests + [Logged(log, BadRequestEntry(url, filepath))]))
  }

  /** `with open(filepath, 'wb')` and the chunk loop: the file then holds the whole body. */
  function SaveBody(st: State, filepath: string, chunks: seq<Bytes>): (r: Outcome<State>)
    ensures r.Done? <==> OpenTarget(st, filepath).Done?
    ensures r.Done? ==>
              && r.value.(files := st.files, written := st.written) == st
              && r.value.files == st.files + {OpenTarget(st, filepath).value}
              && r.value.written == st.written[OpenTarget(st, filepath).value := Concat(chunks)]
  {
    match OpenTarget(st, filepath)
    case Crashed(c) => Crashed(c)
    case Done(p) => Done(st.(files := st.files + {p}, written := st.written[p := Concat(chunks)]))
  }

  /** `dirstr[-1]` for `dirstr = parsed.split('/')`. */
  function FileName(path: string): (f: string)
    ensures '/' !in f
    ensures |f| <= |path| && path[|path| - |f|..] == f
    ensures f == path || (|f| < |path| && path[|path| - |f| - 1] == '/')
  {
    var parts := Split(path, '/');
    if |parts| == 1 then parts[0]
    else
      JoinSnoc(parts, '/');
      parts[|parts| - 1]
  }

  /** `dirstr[i]` for `i in range(1, len(dirstr) - 1)`: the first piece is never entered. */
  function DirsToEnter(path: string): (d: seq<string>)
    ensures forall k :: 0 <= k < |d| ==> '/' !in d[k]
  {
    var parts := Split(path, '/');
    if |parts| >= 2 then parts[1..|parts| - 1] else []
  }

  /** The first piece, the directories and the file name together spell the path again. */
  lemma PlanCoversPath(path: string)
    ensures '/' !in path ==> DirsToEnter(path) == [] && FileName(path) == path
    ensures '/' in path ==>
              path == Join([Split(path, '/')[0]] + DirsToEnter(path) + [FileName(path)], '/')
  {
    var parts := Split(path, '/');
    if '/' in path {
      FirstMiddleLast(parts);
      assert DirsToEnter(path) == parts[1..|parts| - 1];
      assert FileName(path) == parts[|parts| - 1];
    } else {
      assert Join(parts, '/') == parts[0];
    }
  }

  /** For `first/d1/.../dn/f` the directories entered are exactly `d1 .. dn` and the file is `f`;
      with `first` empty this is a path starting with '/'. */
  lemma PlanSkipsFirstPiece(first: string, names: seq<string>, f: string)
    requires '/' !in first && '/' !in f
    requires forall k :: 0 <= k < |names| ==> '/' !in names[k]
    ensures DirsToEnter(Join([first] + names + [f], '/')) == names
    ensures FileName(Join([first] + names + [f], '/')) == f
  {
    var parts := [first] + names + [f];
    forall k | 0 <= k < |parts|
      ensures '/' !in parts[k]
    {
      if 1 <= k < |parts| - 1 {
        assert parts[k] == names[k - 1];
      }
    }
    var path := Join(parts, '/');
    SplitJoin(parts, '/');
    assert Split(path, '/') == parts;
    assert DirsToEnter(path) == parts[1..|parts| - 1];
    assert parts[1..|parts| - 1] == names;
    assert FileName(path) == parts[|parts| - 1];
  }

  /** The loop body once `parse_string` has accepted a non-empty `path`: descend, then either
      skip the existing file or download it, and return to the starting directory. */
  function ProcessPath(st: State, net: Network, base: string, path: string): (r: Outcome<State>)
    ensures Walk(st, DirsToEnter(path)).Crashed? ==> r.Crashed?
    ensures r.Crashed? && Walk(st, DirsToEnter(path)).Done? ==>
              !IsFile(Walk(st, DirsToEnter(path)).value, FileName(path))
    ensures r.Done? ==> r.value.cwd == st.cwd
    ensures r.Done? ==> st.dirs <= r.value.dirs && st.files <= r.value.files
    ensures r.Done? && WellFormed(st) ==> WellFormed(r.value)
    ensures r.Done? ==>
              && r.value.notParsed == st.notParsed
              && st.written.Keys <= r.value.written.Keys
              && Extends(st.requests, r.value.requests, RequestUrl(base, path), MaxAttempts)
              && Extends(st.badRequests, r.value.badRequests,
                         Logged(Walk(st, DirsToEnter(path)).value.cwd + [BadRequestsLog],
                                BadRequestEntry(RequestUrl(base, path), path)), 1)
  {
    match Walk(st, DirsToEnter(path))
    case Crashed(c) => Crashed(c)
    case Done(there) =>
      if IsFile(there, FileName(path)) then Done(there.(cwd := st.cwd))
      else
        match DownloadFile(there, net, RequestUrl(base, path), path)
        case Crashed(c) => Crashed(c)
        case Done(after) => Done(after.(cwd := st.cwd))
  }

  /** The state after `not_parsed.txt` is opened in the working directory. */
  function WithLog(st: State): State
  {
    st.(files := st.files + {st.cwd + [NotParsedLog]})
  }

  /** `with open('not_parsed.txt', 'a')` at the top of `parse_string`: from the first call on
      the log exists in the working directory, unless a directory of that name is in the way. */
  function OpenNotParsed(st: State): (r: Outcome<State>)
    ensures r.Done? <==> st.cwd + [NotParsedLog] !in st.dirs
    ensures r.Done? ==> r.value == WithLog(st)
  {
    OpenInCwd(st, NotParsedLog);
    match OpenTarget(st, NotParsedLog)
    case Crashed(c) => Crashed(c)
    case Done(log) => Done(st.(files := st.files + {log}))
  }

  /** What `parse_string` appends to `not_parsed.txt` when it returns `parsed`: the entry of
      a rejected line, nothing otherwise. */
  function Rejection(parsed: Parse): (log: seq<string>)
    ensures |log| <= 1
    ensures parsed.NotParsed? <==> log != []
  {
    if parsed.NotParsed? then [parsed.entry] else []
  }

  /** One pass of the loop body for a matched `line` against the prefixed `base`;
      the working directory on entry is `orig_dir`. */
  function ProcessLine(st: State, net: Network, base: string, line: string): (r: Outcome<State>)
    ensures r.Done? ==> Advances(st, r.value, base) && r.value.notParsed == st.notParsed + Rejection(ParseString(line))
    ensures r.Done? ==> st.cwd + [NotParsedLog] in r.value.files
    ensures ParseString(line).Raised? ==> r.Crashed?
    ensures ParseString(line).Accepted? && r.Done? ==>
              && Extends(st.requests, r.value.requests, RequestUrl(base, ParseString(line).path), MaxAttempts)
              && |r.value.badRequests| <= |st.badRequests| + 1
  {
    match OpenNotParsed(st)
    case Crashed(c) => Crashed(c)
    case Done(withLog) =>
      var r := AfterParse(withLog, net, base, ParseString(line));
      if r.Done? then
        OpeningAdvances(st, base);
        AdvancesTransitive(st, withLog, r.value, base);
        r
      else r
  }

  /** Opening `not_parsed.txt` only adds that file. */
  lemma OpeningAdvances(st: State, base: string)
    requires OpenNotParsed(st).Done?
    ensures Advances(st, OpenNotParsed(st).value, base)
    ensures st.cwd + [NotParsedLog] in OpenNotParsed(st).value.files
  {
  }

  /** The rest of the pass once `parse_string` has returned `parsed`. */
  function AfterParse(st: State, net: Network, base: string, parsed: Parse): (r: Outcome<State>)
    ensures r.Done? ==> Advances(st, r.value, base) && r.value.notParsed == st.notParsed + Rejection(parsed)
    ensures parsed.Raised? ==> r == Crashed(parsed.crash)
    ensures parsed.Accepted? && r.Done? ==>
              && Extends(st.requests, r.value.requests, RequestUrl(base, parsed.path), MaxAttempts)
              && |r.value.badRequests| <= |st.badRequests| + 1
  {
    match parsed
    case Raised(c) => Crashed(c)
    case NotParsed(e) => Done(st.(notParsed := st.notParsed + [e]))
    case Accepted(path) =>
      if path == "" then Done(st)
      else
        var r := ProcessPath(st, net, base, path);
        if r.Done? then PathAdvances(st, net, base, path); r else r
  }

  /** How one pass ends once `not_parsed.txt` is open: a parse crash ends the run, a
      rejection appends exactly its entry and changes nothing else, and the empty path
      changes nothing; a directory named `not_parsed.txt` makes every pass crash. */
  lemma LineOutcome(st: State, net: Network, base: string, line: string)
    ensures st.cwd + [NotParsedLog] in st.dirs ==> ProcessLine(st, net, base, line) == Crashed(OpenFailed)
    ensures st.cwd + [NotParsedLog] !in st.dirs ==>
              var withLog := WithLog(st);
              var r := ProcessLine(st, net, base, line);
              && (ParseString(line).Raised? ==> r == Crashed(ParseString(line).crash))
              && (ParseString(line).NotParsed? ==>
                    r == Done(withLog.(notParsed := st.notParsed + [ParseString(line).entry])))
              && (ParseString(line) == Accepted("") ==> r == Done(withLog))
  {
  }

  /** A finished path step keeps every promise of `Advances` under `base`. */
  lemma PathAdvances(st: State, net: Network, base: string, path: string)
    requires ProcessPath(st, net, base, path).Done?
    ensures Advances(st, ProcessPath(st, net, base, path).value, base)
  {
    var r := ProcessPath(st, net, base, path).value;
    var url := RequestUrl(base, path);
    forall k | |st.requests| <= k < |r.requests|
      ensures StartsWith(r.requests[k], base)
    {
      assert r.requests[k] == url;
    }
  }

  /** A request is sent for an accepted path exactly when its file is missing from the
      directory the walk reaches; an existing file costs no request and changes nothing but
      the directories created on the way. */
  lemma RequestIffMissing(st: State, net: Network, base: string, path: string)
    requires Walk(st, DirsToEnter(path)).Done?
    ensures var there := Walk(st, DirsToEnter(path)).value;
            var r := ProcessPath(st, net, base, path);
            && (IsFile(there, FileName(path)) ==> r == Done(there.(cwd := st.cwd)))
            && (r.Done? ==> (|r.value.requests| > |st.requests| <==> !IsFile(there, FileName(path))))
  {
    var there := Walk(st, DirsToEnter(path));
    assert there.value.requests == st.requests;
  }

  /** A missing file is downloaded from the directory the walk reached: the entry fails only
      when the download does, and otherwise ends as the download does, back in the start. */
  lemma MissingFileDownloads(st: State, net: Network, base: string, path: string, there: State)
    requires Walk(st, DirsToEnter(path)) == Done(there)
    requires !IsFile(there, FileName(path))
    ensures var d := DownloadFile(there, net, RequestUrl(base, path), path);
            && (ProcessPath(st, net, base, path).Crashed? <==> d.Crashed?)
            && (d.Done? ==> ProcessPath(st, net, base, path) == Done(d.value.(cwd := st.cwd)))
  {
  }

  /** `./name`, which the literal `../name` becomes, enters no directory, and its download is
      opened exactly where `os.path.isfile` looks: the file `name` of the working directory. */
  lemma DotPathOpensChecked(st: State, name: string)
    requires '/' !in name && st.cwd in st.dirs
    ensures DirsToEnter(Join([".", name], '/')) == []
    ensures FileName(Join([".", name], '/')) == name
    ensures OpenTarget(st, Join([".", name], '/')).Done? <==> PlainName(name) && st.cwd + [name] !in st.dirs
    ensures OpenTarget(st, Join([".", name], '/')).Done? ==>
              Resolve(st.cwd, name) == Some(OpenTarget(st, Join([".", name], '/')).value)
  {
    var parts := [".", name];
    SplitJoin(parts, '/');
    assert parts[..|parts| - 1] == ["."];
    assert Lookup(st.dirs, st.cwd, ["."]) == Some(st.cwd);
  }

  /** `../d/f`, which the literal `.../d/f` becomes, enters `d` and names `f`; from the reached
      directory `open` climbs out of `d` and back into it, so it lands on the file `f` that
      `os.path.isfile` checks there. */
  lemma DotDotPathOpensChecked(there: State, d: string, f: string)
    requires '/' !in d && '/' !in f && PlainName(d)
    requires |there.cwd| > 0 && there.cwd[|there.cwd| - 1] == d
    requires there.cwd in there.dirs && Parent(there.cwd) in there.dirs
    ensures DirsToEnter(Join(["..", d, f], '/')) == [d]
    ensures FileName(Join(["..", d, f], '/')) == f
    ensures OpenTarget(there, Join(["..", d, f], '/')).Done? <==> PlainName(f) && there.cwd + [f] !in there.dirs
    ensures OpenTarget(there, Join(["..", d, f], '/')).Done? ==>
              Resolve(there.cwd, f) == Some(OpenTarget(there, Join(["..", d, f], '/')).value)
  {
    var parts := ["..", d, f];
    SplitJoin(parts, '/');
    assert parts[1..|parts| - 1] == [d];
    assert parts[..|parts| - 1] == ["..", d];
    assert Parent(there.cwd) + [d] == there.cwd;
    assert Lookup(there.dirs, there.cwd, ["..", d]) == Some(there.cwd) by {
      assert ["..", d][1..] == [d];
      assert Lookup(there.dirs, Parent(there.cwd), [d]) == Lookup(there.dirs, there.cwd, []);
    }
  }

  /** Whenever the download is written onto the very file the exists check looked for, the
      next pass over the same path finds it: once a pass has not given up, repeating it sends
      no request and changes nothing. */
  lemma SavedWhereCheckedSettles(st: State, net: Network, base: string, path: string)
    requires ProcessPath(st, net, base, path).Done?
    requires ProcessPath(st, net, base, path).value.badRequests == st.badRequests
    requires var there := Walk(st, DirsToEnter(path)).value;
             !IsFile(there, FileName(path)) ==> OpenTarget(there, path) == Done(there.cwd + [FileName(path)])
    ensures ProcessPath(ProcessPath(st, net, base, path).value, net, base, path)
            == ProcessPath(st, net, base, path)
  {
    var there := Walk(st, DirsToEnter(path)).value;
    var once := ProcessPath(st, net, base, path).value;
    var f := FileName(path);
    if !IsFile(there, f) {
      var got := GetRequest(net, |there.requests|, 0);
      assert got.response.Some?;
      var target := OpenTarget(there, path).value;
      assert target == there.cwd + [f] && PlainName(target[|target| - 1]);
      assert target in once.files;
    }
    WalkAgain(st, DirsToEnter(path), once);
    assert Walk(once, DirsToEnter(path)) == Done(once.(cwd := there.cwd));
    assert IsFile(once.(cwd := there.cwd), f);
  }

  /** For a path without '/', the download is saved where the next pass looks: once a pass has
      not given up, repeating it sends no request and changes nothing. */
  lemma PlainPathSettles(st: State, net: Network, base: string, path: string)
    requires '/' !in path
    requires ProcessPath(st, net, base, path).Done?
    requires ProcessPath(st, net, base, path).value.badRequests == st.badRequests
    ensures ProcessPath(ProcessPath(st, net, base, path).value, net, base, path)
            == ProcessPath(st, net, base, path)
  {
    PlanCoversPath(path);
    var once := ProcessPath(st, net, base, path).value;
    assert Walk(st, DirsToEnter(path)) == Done(st);
    assert Walk(once, DirsToEnter(path)) == Done(once);
    if !IsFile(st, path) {
      OpenInCwd(st, path);
      var got := GetRequest(net, |st.requests|, 0);
      assert got.response.Some?;
      assert OpenTarget(st, path).Done?;
      assert st.cwd + [path] in once.files;
    }
    assert IsFile(once, path);
  }
}

=== FILE: examples.dfy ===
/** Concrete runs of the pipeline on lines a PHP file typically contains. */
module Examples {
  import opened Outcomes
  import opened Text
  import opened Parser
  import opened Scheme
  import opened Fetch
  import opened FileSystem
  import opened Entry
  import opened Matcher
  import opened Driver

  /** An empty working tree rooted at the starting directory. */
  const Fresh: State := State({[]}, {}, [], [], [], [], map[])

  /** A server that answers every request with status 200 and a body of three chunks. The
      middle chunk is empty, so the `if chunk:` guard of the save loop has a chunk to skip. */
  function Serving(k: nat): Response
  {
    Received(200, [[60, 63], [], [112]])
  }

  const ConfigLine: string := "include(" + "'" + "./core/config.php" + "'" + ");\n"

  /** The literal `./core/config.php` loses its leading '.', and nothing else. */
  lemma ConfigLineParses()
    ensures ParseString(ConfigLine) == Accepted("/core/config.php")
  {
    var lit := (if true then "." else "") + "/core/config.php";
    assert lit == "./core/config.php";
    QuotedPathParses("include(", true, "/core/config.php", ");\n");
    assert ParseString("include(" + "'" + lit + "'" + ");\n") == Accepted("/core/config.php");
  }

  const Url: string := "http://example.com/core/config.php"

  /** The base `example.com` gains the scheme and the path is appended as it is. */
  lemma ConfigUrl()
    ensures WithScheme("example.com") == "http://example.com"
    ensures RequestUrl("http://example.com", "/core/config.php") == Url
  {
    assert "example.com"[..4][0] == 'e';
  }

  /** `/core/config.php` enters `core` and names the file `config.php`. */
  lemma ConfigPlan()
    ensures DirsToEnter("/core/config.php") == ["core"] && FileName("/core/config.php") == "config.php"
  {
    var parts := [""] + ["core"] + ["config.php"];
    assert parts[1..] == ["core", "config.php"];
    assert parts[1..][1..] == ["config.php"];
    assert Join(parts[1..], '/') == "core" + "/" + "config.php";
    assert "/core/config.php" == Join(parts, '/');
    PlanSkipsFirstPiece("", ["core"], "config.php");
  }

  /** `not_parsed.txt` is opened before the line is parsed, so it exists from the first line on. */
  const Opened: State := Fresh.(files := {[NotParsedLog]})

  lemma FreshOpensLog()
    ensures Fresh.cwd + [NotParsedLog] !in Fresh.dirs && WithLog(Fresh) == Opened
  {
    assert Fresh.cwd + [NotParsedLog] == [NotParsedLog];
    assert [NotParsedLog] !in Fresh.dirs;
    assert Fresh.files + {[NotParsedLog]} == Opened.files;
  }

  /** After the descent: `core` exists and is the working directory. */
  const InCore: State := Opened.(dirs := {[], ["core"]}, cwd := ["core"])

  lemma ConfigWalk()
    ensures Walk(Opened, ["core"]) == Done(InCore)
    ensures !IsFile(InCore, "config.php")
  {
    assert PlainName("core");
    assert Opened.cwd + ["core"] == ["core"];
    assert Resolve(Opened.cwd, "core") == Some(["core"]);
    assert ["core"] !in Opened.dirs && ["core"] !in Opened.files;
    assert Opened.dirs + {["core"]} == InCore.dirs;
    assert Enter(Opened, "core") == Done(InCore);
    assert ["core"][1..] == [];
    assert ["core", "config.php"] != [NotParsedLog];
  }

  /** Run from the file system root, the absolute name `/core/config.php` designates the file
      in the rebuilt `core`. */
  lemma ConfigTarget()
    ensures OpenTarget(InCore, "/core/config.php") == Done(["core", "config.php"])
  {
    assert ["core", "config.php"] !in InCore.dirs;
    CoreTarget(InCore);
    CoreNames();
  }

  lemma CoreTarget(st: State)
    requires [] in st.dirs && ["core"] in st.dirs && ["core", "config.php"] !in st.dirs
    ensures OpenTarget(st, Join([""] + ["core"] + ["config.php"], '/')) == Done(["core", "config.php"])
  {
    CoreNames();
    assert ["core"][..1] == ["core"];
    assert ["core"] + ["config.php"] == ["core", "config.php"];
    OpenAbsolute(st, ["core"], "config.php");
  }

  /** `/core/config.php` is the absolute name made of `core` and `config.php`. */
  lemma CoreNames()
    ensures Join([""] + ["core"] + ["config.php"], '/') == "/core/config.php"
    ensures PlainName("core") && '/' !in "core" && PlainName("config.php") && '/' !in "config.php"
    ensures forall k :: 0 <= k < |["core"]| ==> PlainName(["core"][k]) && '/' !in ["core"][k]
  {
    var parts := [""] + ["core"] + ["config.php"];
    assert parts[1..] == ["core", "config.php"];
    assert parts[1..][1..] == ["config.php"];
    assert Join(parts[1..], '/') == "core" + "/" + "config.php";
  }

  const Saved: State :=
    InCore.(requests := [Url], files := {[NotParsedLog], ["core", "config.php"]},
            written := map[["core", "config.php"] := [60, 63, 112]])

  /** The first request succeeds, so one request is sent and the body is saved. */
  lemma ServedDownload(st: State, url: string, path: string, target: Path)
    requires st.requests == [] && OpenTarget(st, path) == Done(target)
    ensures DownloadFile(st, Serving, url, path)
            == Done(st.(requests := [url], files := st.files + {target}, written := st.written[target := [60, 63, 112]]))
  {
    assert FirstAnswerAt(Serving, 0, 0);
    assert Concat([[112]]) == [112];
    assert Concat([[], [112]]) == [112];
    assert Concat([[60, 63], [], [112]]) == [60, 63, 112];
    var r := DownloadFile(st, Serving, url, path);
    assert r.Done? && |r.value.requests| == 1;
    assert r.value.requests == [url];
  }

  lemma ConfigDownload()
    ensures DownloadFile(InCore, Serving, Url, "/core/config.php") == Done(Saved)
  {
    ConfigTarget();
    ServedDownload(InCore, Url, "/core/config.php", ["core", "config.php"]);
    SavedFromCore();
  }

  /** `Saved` is `InCore` after one request whose body went to `/core/config.php`. */
  lemma SavedFromCore()
    ensures InCore.(requests := [Url], files := InCore.files + {["core", "config.php"]},
                    written := InCore.written[["core", "config.php"] := [60, 63, 112]]) == Saved
  {
    assert InCore.files + {["core", "config.php"]} == Saved.files;
    assert InCore.written[["core", "config.php"] := [60, 63, 112]] == Saved.written;
  }

  /** With the log open, an accepted line goes on to the path step with its parsed path. */
  lemma AcceptedLineToPath(st: State, net: Network, base: string, line: string, path: string)
    requires st.cwd + [NotParsedLog] !in st.dirs
    requires ParseString(line) == Accepted(path) && path != ""
    ensures ProcessLine(st, net, base, line) == ProcessPath(WithLog(st), net, base, path)
  {
  }

  lemma ConfigLineToPath(st: State, net: Network, base: string)
    requires st.cwd + [NotParsedLog] !in st.dirs
    ensures ProcessLine(st, net, base, ConfigLine) == ProcessPath(WithLog(st), net, base, "/core/config.php")
  {
    ConfigLineParses();
    AcceptedLineToPath(st, net, base, ConfigLine, "/core/config.php");
  }

  lemma ConfigPathDownloads()
    ensures ProcessPath(Opened, Serving, "http://example.com", "/core/config.php") == Done(Saved.(cwd := []))
  {
    ConfigPlan();
    ConfigWalk();
    ConfigUrl();
    ConfigDownload();
    MissingFileDownloads(Opened, Serving, "http://example.com", "/core/config.php", InCore);
  }

  /** On an empty tree at the file system root, the entry creates `not_parsed.txt` and `core`,
      sends one request and saves the whole body into `core/config.php`; the working directory
      is back at the start. */
  lemma ConfigLineDownloads()
    ensures ProcessLine(Fresh, Serving, "http://example.com", ConfigLine)
            == Done(State({[], ["core"]}, {[NotParsedLog], ["core", "config.php"]}, [], [Url], [], [],
                          map[["core", "config.php"] := [60, 63, 112]]))
  {
    ConfigLineToPath(Fresh, Serving, "http://example.com");
    FreshOpensLog();
    ConfigPathDownloads();
  }

  /** The same line run from `/srv`: the descent builds `/srv/core`, but `open` takes the
      absolute name `/core/config.php`, whose directory does not exist, and the run crashes. */
  const InSrv: State := State({[], ["srv"]}, {}, ["srv"], [], [], [], map[])

  const SrvCore: State :=
    InSrv.(dirs := {[], ["srv"], ["srv", "core"]}, files := {["srv", NotParsedLog]}, cwd := ["srv", "core"])

  lemma SrvWalk()
    ensures Walk(InSrv.(files := {["srv", NotParsedLog]}), ["core"]) == Done(SrvCore)
    ensures !IsFile(SrvCore, "config.php")
  {
    var st := InSrv.(files := {["srv", NotParsedLog]});
    assert st.cwd + ["core"] == ["srv", "core"];
    assert Resolve(st.cwd, "core") == Some(["srv", "core"]);
    assert ["srv", "core"] !in st.dirs && ["srv", "core"] !in st.files;
    assert st.dirs + {["srv", "core"]} == SrvCore.dirs;
    assert Enter(st, "core") == Done(SrvCore);
    assert ["core"][1..] == [];
    assert ["srv", "core", "config.php"] != ["srv", NotParsedLog];
  }

  lemma SrvTargetMissing()
    ensures OpenTarget(SrvCore, "/core/config.php").Crashed?
  {
    CoreNames();
    assert ["core"][..1] == ["core"] && ["core"] !in SrvCore.dirs;
    OpenAbsolute(SrvCore, ["core"], "config.php");
  }

  lemma SrvDownloadFails()
    ensures DownloadFile(SrvCore, Serving, Url, "/core/config.php").Crashed?
  {
    assert FirstAnswerAt(Serving, 0, 0);
    SrvTargetMissing();
  }

  lemma SrvPathFails()
    ensures ProcessPath(InSrv.(files := {["srv", NotParsedLog]}), Serving, "http://example.com", "/core/config.php").Crashed?
  {
    ConfigPlan();
    SrvWalk();
    ConfigUrl();
    SrvDownloadFails();
    MissingFileDownloads(InSrv.(files := {["srv", NotParsedLog]}), Serving, "http://example.com", "/core/config.php", SrvCore);
  }

  lemma AbsolutePathMissesTree()
    ensures ProcessLine(InSrv, Serving, "http://example.com", ConfigLine).Crashed?
  {
    assert InSrv.cwd + [NotParsedLog] == ["srv", NotParsedLog] && ["srv", NotParsedLog] !in InSrv.dirs;
    assert InSrv.files + {["srv", NotParsedLog]} == {["srv", NotParsedLog]};
    assert WithLog(InSrv) == InSrv.(files := {["srv", NotParsedLog]});
    ConfigLineToPath(InSrv, Serving, "http://example.com");
    SrvPathFails();
  }

  /** The reference `config.php` names a file of the starting directory. */
  const PlainLine: string := "include(" + "'" + "config.php" + "'" + ");\n"

  lemma PlainLineParses()
    ensures ParseString(PlainLine) == Accepted("config.php")
  {
    var lit := (if false then "." else "") + "config.php";
    assert lit == "config.php";
    QuotedPathParses("include(", false, "config.php", ");\n");
  }

  /** A served path without '/' whose file is missing is saved into the working directory. */
  lemma ServedPlainPath(st: State, base: string, name: string)
    requires '/' !in name && PlainName(name)
    requires st.requests == [] && st.cwd + [name] !in st.dirs && st.cwd + [name] !in st.files
    ensures ProcessPath(st, Serving, base, name)
            == Done(st.(requests := [RequestUrl(base, name)], files := st.files + {st.cwd + [name]},
                        written := st.written[st.cwd + [name] := [60, 63, 112]]))
  {
    PlanCoversPath(name);
    assert Walk(st, []) == Done(st);
    assert !IsFile(st, name);
    OpenInCwd(st, name);
    ServedDownload(st, RequestUrl(base, name), name, st.cwd + [name]);
    MissingFileDownloads(st, Serving, base, name, st);
  }

  /** The state after the first pass of a served plain include: the log is open, one request
      went out, and the body sits in the working directory. */
  function AfterPlainDownload(st: State, base: string, name: string): State
  {
    WithLog(st).(requests := [RequestUrl(base, name)], files := WithLog(st).files + {st.cwd + [name]},
                 written := st.written[st.cwd + [name] := [60, 63, 112]])
  }

  /** A file of the starting directory included twice: the first pass downloads it there and
      the second finds it, so one request is sent in all. */
  lemma IncludedTwiceRequestedOnce(st: State, base: string, line: string, name: string)
    requires ParseString(line) == Accepted(name) && '/' !in name && PlainName(name) && name != NotParsedLog
    requires st.requests == [] && st.cwd + [NotParsedLog] !in st.dirs
    requires st.cwd + [name] !in st.dirs && st.cwd + [name] !in st.files
    ensures ProcessMatches(st, Serving, base, [line, line]) == Done(AfterPlainDownload(st, base, name))
  {
    var once := AfterPlainDownload(st, base, name);
    FirstPassDownloads(st, base, line, name);
    SecondPassFinds(st, base, line, name);
    assert [line, line][1..] == [line];
    assert [line][1..] == [];
    assert ProcessMatches(once, Serving, base, []) == Done(once);
  }

  lemma FirstPassDownloads(st: State, base: string, line: string, name: string)
    requires ParseString(line) == Accepted(name) && '/' !in name && PlainName(name) && name != NotParsedLog
    requires st.requests == [] && st.cwd + [NotParsedLog] !in st.dirs
    requires st.cwd + [name] !in st.dirs && st.cwd + [name] !in st.files
    ensures ProcessLine(st, Serving, base, line) == Done(AfterPlainDownload(st, base, name))
  {
    AcceptedLineToPath(st, Serving, base, line, name);
    FirstPathDownloads(st, base, name);
  }

  lemma FirstPathDownloads(st: State, base: string, name: string)
    requires '/' !in name && PlainName(name) && name != NotParsedLog
    requires st.requests == [] && st.cwd + [name] !in st.dirs && st.cwd + [name] !in st.files
    ensures ProcessPath(WithLog(st), Serving, base, name) == Done(AfterPlainDownload(st, base, name))
  {
    assert (st.cwd + [name])[|st.cwd|] != (st.cwd + [NotParsedLog])[|st.cwd|];
    ServedPlainPath(WithLog(st), base, name);
  }

  lemma SecondPassFinds(st: State, base: string, line: string, name: string)
    requires ParseString(line) == Accepted(name) && '/' !in name && PlainName(name)
    requires st.cwd + [NotParsedLog] !in st.dirs && st.cwd + [name] !in st.dirs
    ensures ProcessLine(AfterPlainDownload(st, base, name), Serving, base, line)
            == Done(AfterPlainDownload(st, base, name))
  {
    var once := AfterPlainDownload(st, base, name);
    AcceptedLineToPath(once, Serving, base, line, name);
    assert WithLog(once) == once;
    PlanCoversPath(name);
    assert Walk(once, DirsToEnter(name)) == Done(once);
    assert Resolve(once.cwd, name) == Some(st.cwd + [name]);
    assert IsFile(once, FileName(name));
    RequestIffMissing(once, Serving, base, name);
  }

  /** `include('config.php');` twice from the root of an empty tree: one request, one saved
      file. */
  lemma RepeatedIncludeRequestedOnce()
    ensures ProcessMatches(Fresh, Serving, "http://example.com", [PlainLine, PlainLine])
            == Done(AfterPlainDownload(Fresh, "http://example.com", "config.php"))
    ensures AfterPlainDownload(Fresh, "http://example.com", "config.php").requests
            == [RequestUrl("http://example.com", "config.php")]
  {
    PlainLineParses();
    RootIncludeTwice(PlainLine, "http://example.com");
  }

  lemma RootIncludeTwice(line: string, base: string)
    requires ParseString(line) == Accepted("config.php")
    ensures ProcessMatches(Fresh, Serving, base, [line, line]) == Done(AfterPlainDownload(Fresh, base, "config.php"))
  {
    assert PlainName("config.php") && '/' !in "config.php" && "config.php" != NotParsedLog;
    assert Fresh.cwd + ["config.php"] == ["config.php"] && Fresh.cwd + [NotParsedLog] == [NotParsedLog];
    IncludedTwiceRequestedOnce(Fresh, base, line, "config.php");
  }

  /** A single space between two texts disappears. */
  lemma DropOneSpace(a: string, b: string)
    ensures RemoveSpaces(a + " " + b) == RemoveSpaces(a) + RemoveSpaces(b)
  {
    var sp := " ";
    assert sp[0] == ' ' && sp[1..] == [];
    assert RemoveSpaces(sp) == [];
    RemoveSpacesAppend(a + sp, b);
    RemoveSpacesAppend(a, sp);
  }

  const CommentLine: string := "//" + " " + "include" + " " + "db\n"

  lemma CommentStripped()
    ensures RemoveSpaces(CommentLine) == "//includedb\n"
  {
    var head := "//" + " " + "include";
    HeadStripped();
    DropOneSpace(head, "db\n");
    RemoveSpacesIdentity("db\n");
    assert "//include" + "db\n" == "//includedb\n";
  }

  lemma HeadStripped()
    ensures RemoveSpaces("//" + " " + "include") == "//include"
  {
    DropOneSpace("//", "include");
    RemoveSpacesIdentity("//");
    RemoveSpacesIdentity("include");
  }

  /** A comment that mentions the keyword has no quote: one rejection entry, spaces gone. */
  lemma CommentIsLogged(st: State, net: Network, base: string)
    requires st.cwd + [NotParsedLog] !in st.dirs
    ensures ProcessLine(st, net, base, CommentLine) == Done(WithLog(st).(notParsed := st.notParsed + ["//includedb\n"]))
  {
    CommentStripped();
    assert '\'' !in CommentLine && '"' !in CommentLine;
    assert ParseString(CommentLine) == NotParsed("//includedb\n");
    LineOutcome(st, net, base, CommentLine);
  }

  /** Double quotes alone make the single-quote split fail. */
  lemma DoubleQuotesCrash(st: State, net: Network, base: string)
    requires st.cwd + [NotParsedLog] !in st.dirs
    ensures ProcessLine(st, net, base, "require \"db.php\";\n") == Crashed(QuoteSplitIndexError)
  {
    assert '"' in "require \"db.php\";\n";
    assert '\'' !in "require \"db.php\";\n";
    LineOutcome(st, net, base, "require \"db.php\";\n");
  }

  /** An empty literal makes `string[0]` fail. */
  lemma EmptyLiteralCrashes(st: State, net: Network, base: string)
    requires st.cwd + [NotParsedLog] !in st.dirs
    ensures ProcessLine(st, net, base, "include(" + "'" + "" + "'" + ");") == Crashed(EmptyLiteralIndexError)
  {
    var line := "include(" + "'" + "" + "'" + ");";
    RemoveSpacesIdentity(line);
    LiteralOfClosed("include(", "", ");");
    LineOutcome(st, net, base, line);
  }

  /** The literal `.` comes back as the empty path, which is skipped without a log entry. */
  lemma LoneDotIsSkipped(st: State, net: Network, base: string)
    requires st.cwd + [NotParsedLog] !in st.dirs
    ensures ProcessLine(st, net, base, "include(" + "'" + "." + "'" + ");") == Done(WithLog(st))
  {
    assert "." + "" == ".";
    QuotedPathParses("include(", true, "", ");");
    LineOutcome(st, net, base, "include(" + "'" + "." + "'" + ");");
  }

  const LibLine: string := "include(" + "'" + "lib/" + "'" + ");"

  lemma LibLineRejected()
    ensures ParseString(LibLine) == NotParsed("lib/")
  {
    RemoveSpacesIdentity(LibLine);
    LiteralOfClosed("include(", "lib/", ");");
    assert "lib/"[0] == 'l' && EndsWith("lib/", '/');
    LiteralLogged(LibLine, "lib/");
  }

  /** A literal naming a directory is logged and skipped. */
  lemma DirectoryIsLogged(st: State, net: Network, base: string)
    requires st.cwd + [NotParsedLog] !in st.dirs
    ensures ProcessLine(st, net, base, LibLine) == Done(WithLog(st).(notParsed := st.notParsed + ["lib/"]))
  {
    LibLineRejected();
    LineOutcome(st, net, base, LibLine);
  }

  /** `../config.php` loses one '.' only. */
  lemma ParentReferenceLosesOneDot()
    ensures ParseString("include(" + "'" + "../config.php" + "'" + ");") == Accepted("./config.php")
  {
    assert "." + "./config.php" == "../config.php";
    QuotedPathParses("include(", true, "./config.php", ");");
  }

  /** `./config.php` enters no directory: its first piece `.` is skipped like every first piece. */
  lemma DotPathEntersNothing()
    ensures DirsToEnter("./config.php") == [] && FileName("./config.php") == "config.php"
  {
    var parts := ["."] + [] + ["config.php"];
    assert parts[1..] == ["config.php"];
    assert Join(parts, '/') == "./config.php";
    PlanSkipsFirstPiece(".", [], "config.php");
  }

  /** The comment line mentions both keywords. */
  lemma CommentMentionsBoth()
    ensures Contains(CommentLine, "include") && Contains(CommentLine, "db")
  {
    assert CommentLine == "// include db\n";
    assert OccursAt(CommentLine, "include", 3);
    assert OccursAt(CommentLine, "db", 11);
  }

  lemma CommentMatchesEach(word: string)
    requires Contains(CommentLine, word)
    ensures Matches([CommentLine], word) == [CommentLine]
  {
    assert [CommentLine][1..] == [];
  }

  lemma CommentListLogged(st: State, net: Network, base: string)
    requires st.cwd + [NotParsedLog] !in st.dirs
    ensures ProcessMatches(st, net, base, [CommentLine]) == Done(WithLog(st).(notParsed := st.notParsed + ["//includedb\n"]))
  {
    CommentIsLogged(st, net, base);
    assert [CommentLine][1..] == [];
  }

  /** Keywords are handled one after the other over the whole file, so a line that mentions
      two of them is processed twice: here the comment is logged once per keyword. */
  lemma TwoKeywordsTwoPasses(st: State, net: Network, base: string)
    requires st.cwd + [NotParsedLog] !in st.dirs
    ensures Run(st, net, base, ["include", "db"], [CommentLine])
            == Done(WithLog(st).(notParsed := st.notParsed + ["//includedb\n", "//includedb\n"]))
  {
    CommentMentionsBoth();
    CommentMatchesEach("include");
    CommentMatchesEach("db");
    var url := WithScheme(base);
    CommentListLogged(st, net, url);
    var once := WithLog(st).(notParsed := st.notParsed + ["//includedb\n"]);
    CommentListLogged(once, net, url);
    assert WithLog(once) == once.(files := WithLog(st).files);
    assert ["include", "db"][1..] == ["db"];
    assert ["db"][1..] == [];
    assert once.notParsed + ["//includedb\n"] == st.notParsed + ["//includedb\n", "//includedb\n"];
  }
}

=== FILE: fetch.dfy ===
/** `get_request` and the body-saving half of `download_file`. */
module Fetch {
  import opened Outcomes

  newtype byte = x: int | 0 <= x < 256
  type Bytes = seq<byte>

  /** What one call of `requests.get` produces. */
  datatype Response =
    | Received(status: int, chunks: seq<Bytes>)   // a response and the chunks its body streams in
    | ConnectionError                             // any RequestException raised before a response

  /** The outcome of the k-th request of a run, numbered from 0. */
  type Network = nat -> Response

  /** The number of attempts `get_request` makes before giving up. */
  const MaxAttempts: nat := 5

  /** `raise_for_status()` raises for client and server error statuses. */
  predicate RaisesForStatus(status: int)
  {
    400 <= status < 600
  }

  /** Request number `k` returns a response that survives `raise_for_status()`. */
  predicate AnswersAt(net: Network, k: nat)
  {
    net(k).Received? && !RaisesForStatus(net(k).status)
  }

  /** Request number `k` is the first usable one from request number `from` on. */
  predicate FirstAnswerAt(net: Network, from: nat, k: nat)
  {
    from <= k && AnswersAt(net, k) && forall i :: from <= i < k ==> !AnswersAt(net, i)
  }

  /** The response `get_request` returns (None for `False`) and how many requests it issued. */
  datatype Fetched = Fetched(response: Option<Response>, attempts: nat)

  /** `get_request(url, failed)`, whose first request is number `next` of the run. */
  function GetRequest(net: Network, next: nat, failed: nat): (r: Fetched)
    requires failed <= MaxAttempts
    ensures r.attempts <= MaxAttempts - failed
    ensures r.response.Some? ==>
              && 1 <= r.attempts
              && FirstAnswerAt(net, next, next + r.attempts - 1)
              && r.response.value == net(next + r.attempts - 1)
    ensures r.response.None? ==>
              && r.attempts == MaxAttempts - failed
              && forall k :: next <= k < next + r.attempts ==> !AnswersAt(net, k)
    decreases MaxAttempts - failed
  {
    if failed == MaxAttempts then Fetched(None, 0)
    else if AnswersAt(net, next) then Fetched(Some(net(next)), 1)
    else
      var rest := GetRequest(net, next + 1, failed + 1);
      Fetched(rest.response, rest.attempts + 1)
  }

  /** Five failures in a row: `False` after exactly five requests. */
  lemma GetRequestGivesUp(net: Network, next: nat)
    requires forall k :: next <= k < next + MaxAttempts ==> !AnswersAt(net, k)
    ensures GetRequest(net, next, 0) == Fetched(None, MaxAttempts)
  {
  }

  /** The bytes of the chunks one after the other. */
  function Concat(chunks: seq<Bytes>): Bytes
    decreases |chunks|
  {
    if chunks == [] then [] else chunks[0] + Concat(chunks[1..])
  }

  lemma {:induction false} ConcatSnoc(chunks: seq<Bytes>, c: Bytes)
    ensures Concat(chunks + [c]) == Concat(chunks) + c
    decreases |chunks|
  {
    if chunks == [] {
      assert chunks + [c] == [c];
    } else {
      assert (chunks + [c])[1..] == chunks[1..] + [c];
      ConcatSnoc(chunks[1..], c);
    }
  }

  /** The chunks that the `if chunk:` guard lets through. */
  function NonEmpty(chunks: seq<Bytes>): (kept: seq<Bytes>)
    ensures forall k :: 0 <= k < |kept| ==> kept[k] != []
    decreases |chunks|
  {
    if chunks == [] then []
    else (if chunks[0] == [] then [] else [chunks[0]]) + NonEmpty(chunks[1..])
  }

  /** Skipping empty chunks loses no byte. */
  lemma {:induction false} ConcatNonEmpty(chunks: seq<Bytes>)
    ensures Concat(NonEmpty(chunks)) == Concat(chunks)
    decreases |chunks|
  {
    if chunks != [] {
      ConcatNonEmpty(chunks[1..]);
      var head := if chunks[0] == [] then [] else [chunks[0]];
      ConcatAppend(head, NonEmpty(chunks[1..]));
    }
  }

  lemma {:induction false} ConcatAppend(a: seq<Bytes>, b: seq<Bytes>)
    ensures Concat(a + b) == Concat(a) + Concat(b)
    decreases |a|
  {
    if a == [] {
      assert a + b == b;
    } else {
      assert (a + b)[1..] == a[1..] + b;
      ConcatAppend(a[1..], b);
    }
  }

  /** The chunk loop of `download_file`: the file ends up holding every byte received, in order. */
  method WriteChunks(chunks: seq<Bytes>) returns (saved: Bytes)
    ensures saved == Concat(NonEmpty(chunks))
    ensures saved == Concat(chunks)
  {
    saved := [];
    var i := 0;
    while i < |chunks|
      invariant 0 <= i <= |chunks|
      invariant saved == Concat(chunks[..i])
    {
      if chunks[i] != [] {
        saved := saved + chunks[i];
      }
      ConcatSnoc(chunks[..i], chunks[i]);
      assert chunks[..i + 1] == chunks[..i] + [chunks[i]];
      i := i + 1;
    }
    assert chunks[..|chunks|] == chunks;
    ConcatNonEmpty(chunks);
  }
}

=== FILE: filesystem.dfy ===
/** The part of the machine the script touches, as an immutable record. */
module FileSystem {
  import opened Outcomes
  import opened Text
  import opened Fetch

  /** A location as the sequence of directory names from the file system root. */
  type Path = seq<string>

  /** A line appended to a log file, with the file it went to. The logs are records of
      these appends; a download that later overwrites a log file does not erase them. */
  datatype Logged = Logged(file: Path, line: string)

  datatype State = State(
    dirs: set<Path>,               // existing directories
    files: set<Path>,              // existing regular files, as `os.path.isfile` sees them
    cwd: Path,                     // the process's working directory
    requests: seq<string>,         // the URL of every `requests.get` issued, in order
    notParsed: seq<string>,        // lines appended to `not_parsed.txt`, without their line ends
    badRequests: seq<Logged>,      // lines appended to a `bad_requests.txt`, without their line ends
    written: map<Path, Bytes>)     // the bytes a download last saved into each file

  function Parent(p: Path): Path
  {
    if p == [] then [] else p[..|p| - 1]
  }

  /** The tree is rooted, closed under parents, the working directory is one of its nodes,
      no path is both a directory and a file, and every saved download is a file. */
  predicate WellFormed(st: State)
  {
    && [] in st.dirs
    && st.cwd in st.dirs
    && (forall p :: p in st.dirs ==> Parent(p) in st.dirs)
    && st.dirs !! st.files
    && st.written.Keys <= st.files
  }

  /** Where one path component leads from `cwd`; the empty name leads nowhere. */
  function Resolve(cwd: Path, name: string): Option<Path>
  {
    if name == "" then None
    else if name == "." then Some(cwd)
    else if name == ".." then Some(Parent(cwd))
    else Some(cwd + [name])
  }

  /** A component that names a child of the current directory. */
  predicate PlainName(name: string)
  {
    name != "" && name != "." && name != ".."
  }

  /** `os.path.isfile(name)` relative to the working directory. */
  predicate IsFile(st: State, name: string)
  {
    Resolve(st.cwd, name).Some? && Resolve(st.cwd, name).value in st.files
  }

  /** `if not os.path.isdir(name): os.mkdir(name)` and then `os.chdir(name)`. */
  function Enter(st: State, name: string): (r: Outcome<State>)
    ensures Resolve(st.cwd, name).None? ==> r == Crashed(MkdirEmptyName)
    ensures Resolve(st.cwd, name).Some? ==>
              var p := Resolve(st.cwd, name).value;
              && (r.Crashed? <==> p in st.files && p !in st.dirs)
              && (r.Done? ==> r.value == st.(dirs := st.dirs + {p}, cwd := p))
  {
    match Resolve(st.cwd, name)
    case None => Crashed(MkdirEmptyName)
    case Some(p) =>
      if p in st.dirs then
        assert st.dirs + {p} == st.dirs;
        Done(st.(cwd := p))
      else if p in st.files then Crashed(MkdirOverFile)
      else Done(st.(dirs := st.dirs + {p}, cwd := p))
  }

  /** The directory reached from `cwd` by following `names`, None if one of them is empty. */
  function Target(cwd: Path, names: seq<string>): Option<Path>
    decreases |names|
  {
    if names == [] then Some(cwd)
    else
      match Resolve(cwd, names[0])
      case None => None
      case Some(p) => Target(p, names[1..])
  }

  /** The loop of `main` that descends through `names`, creating what is missing. */
  function Walk(st: State, names: seq<string>): (r: Outcome<State>)
    ensures r.Done? ==> Target(st.cwd, names) == Some(r.value.cwd)
    ensures "" in names ==> r.Crashed?
    ensures r.Done? ==> st.dirs <= r.value.dirs
    ensures r.Done? ==> forall p :: p in r.value.dirs && p !in st.dirs ==> p !in st.files
    ensures r.Done? ==> r.value.(dirs := st.dirs, cwd := st.cwd) == st
    ensures r.Done? && WellFormed(st) ==> WellFormed(r.value)
    decreases |names|
  {
    if names == [] then Done(st)
    else
      assert names[0] != "" ==> ("" in names <==> "" in names[1..]) by {
        assert names == [names[0]] + names[1..];
      }
      match Enter(st, names[0])
      case Crashed(c) => Crashed(c)
      case Done(next) => Walk(next, names[1..])
  }

  /** Descending through ordinary names creates exactly the missing prefixes of the route,
      ends below the starting directory, and so creates nothing when the route exists. */
  lemma {:induction false} WalkBuildsRoute(st: State, names: seq<string>)
    requires forall k :: 0 <= k < |names| ==> PlainName(names[k])
    requires forall k :: 1 <= k <= |names| ==> st.cwd + names[..k] in st.dirs || st.cwd + names[..k] !in st.files
    ensures Walk(st, names).Done?
    ensures Walk(st, names).value.cwd == st.cwd + names
    ensures Walk(st, names).value.dirs == st.dirs + Route(st.cwd, names)
    decreases |names|
  {
    if names == [] {
      assert Route(st.cwd, names) == {};
    } else {
      var p := st.cwd + [names[0]];
      assert PlainName(names[0]);
      assert p == st.cwd + names[..1];
      var next := st.(dirs := st.dirs + {p}, cwd := p);
      assert Enter(st, names[0]) == Done(if p in st.dirs then st.(cwd := p) else next);
      var step := if p in st.dirs then st.(cwd := p) else next;
      assert step.dirs == st.dirs + {p};
      var tail := names[1..];
      forall k | 1 <= k <= |tail|
        ensures step.cwd + tail[..k] in step.dirs || step.cwd + tail[..k] !in step.files
      {
        assert step.cwd + tail[..k] == st.cwd + names[..k + 1];
      }
      WalkBuildsRoute(step, tail);
      assert step.cwd + tail == st.cwd + names;
      RouteCons(st.cwd, names);
    }
  }

  /** A descent repeated once its directories exist only moves: from the same working
      directory, over at least the directories the first descent left, it ends where the
      first one did and creates nothing. */
  lemma {:induction false} WalkAgain(st: State, names: seq<string>, later: State)
    requires Walk(st, names).Done?
    requires later.cwd == st.cwd && Walk(st, names).value.dirs <= later.dirs
    ensures Walk(later, names) == Done(later.(cwd := Walk(st, names).value.cwd))
    decreases |names|
  {
    if names != [] {
      var next := Enter(st, names[0]).value;
      var p := next.cwd;
      assert p in next.dirs;
      var moved := later.(cwd := p);
      assert Enter(later, names[0]) == Done(moved) by {
        assert later.dirs + {p} == later.dirs;
      }
      WalkAgain(next, names[1..], moved);
    }
  }

  /** The directories passed through, including the last one. */
  function Route(cwd: Path, names: seq<string>): set<Path>
  {
    set k | 1 <= k <= |names| :: cwd + names[..k]
  }

  lemma RouteCons(cwd: Path, names: seq<string>)
    requires names != []
    ensures Route(cwd, names) == {cwd + [names[0]]} + Route(cwd + [names[0]], names[1..])
  {
    var head := cwd + [names[0]];
    forall p | p in Route(cwd, names)
      ensures p in {head} + Route(head, names[1..])
    {
      var k :| 1 <= k <= |names| && p == cwd + names[..k];
      if k > 1 {
        assert p == head + names[1..][..k - 1];
      } else {
        assert p == head;
      }
    }
    forall p | p in Route(head, names[1..])
      ensures p in Route(cwd, names)
    {
      var k :| 1 <= k <= |names[1..]| && p == head + names[1..][..k];
      assert p == cwd + names[..k + 1];
    }
    assert head == cwd + names[..1];
  }

  /** The directory components of a name given to `open`, followed from `dir`: the empty
      name and `.` stay, `..` goes up, and every step must land on an existing directory. */
  function Lookup(dirs: set<Path>, dir: Path, names: seq<string>): (r: Option<Path>)
    ensures r.Some? && dir in dirs ==> r.value in dirs
    decreases |names|
  {
    if names == [] then Some(dir)
    else
      var next := if names[0] == "" || names[0] == "." then dir
                  else if names[0] == ".." then Parent(dir)
                  else dir + [names[0]];
      if next in dirs then Lookup(dirs, next, names[1..]) else None
  }

  /** The regular file `open(name, 'a')` or `open(name, 'wb')` creates or reopens. A name
      starting with '/' (an empty first piece) is followed from the file system root, any
      other from the working directory; a missing directory on the way, or a last piece that
      is a directory, makes `open` raise. */
  function OpenTarget(st: State, name: string): (r: Outcome<Path>)
    ensures r.Done? ==> r.value !in st.dirs && |r.value| > 0 && PlainName(r.value[|r.value| - 1])
    ensures r.Done? ==> r.value[|r.value| - 1] == Split(name, '/')[|Split(name, '/')| - 1]
    ensures r.Done? && WellFormed(st) ==> Parent(r.value) in st.dirs
  {
    var parts := Split(name, '/');
    var f := parts[|parts| - 1];
    var start: Path := if |parts| > 1 && parts[0] == "" then [] else st.cwd;
    var found := Lookup(st.dirs, start, parts[..|parts| - 1]);
    if found.Some? && PlainName(f) && found.value + [f] !in st.dirs then
      var p := found.value + [f];
      assert p[|p| - 1] == f && Parent(p) == found.value;
      assert WellFormed(st) ==> start in st.dirs;
      Done(p)
    else Crashed(OpenFailed)
  }

  /** A name without '/' is opened in the working directory, and that fails only when the
      name is empty, `.`, `..` or an existing directory. */
  lemma OpenInCwd(st: State, name: string)
    requires '/' !in name
    ensures OpenTarget(st, name).Done? <==> PlainName(name) && st.cwd + [name] !in st.dirs
    ensures OpenTarget(st, name).Done? ==> OpenTarget(st, name).value == st.cwd + [name]
  {
    var parts := Split(name, '/');
    assert Join(parts, '/') == parts[0];
    assert parts == [name];
    assert parts[..|parts| - 1] == [];
  }

  /** Following ordinary names succeeds exactly when every directory on the route exists. */
  lemma {:induction false} LookupPlain(dirs: set<Path>, dir: Path, names: seq<string>)
    requires forall k :: 0 <= k < |names| ==> PlainName(names[k])
    ensures Lookup(dirs, dir, names).Some? <==> forall k :: 1 <= k <= |names| ==> dir + names[..k] in dirs
    ensures Lookup(dirs, dir, names).Some? ==> Lookup(dirs, dir, names).value == dir + names
    decreases |names|
  {
    if names != [] {
      var next := dir + [names[0]];
      assert PlainName(names[0]);
      assert next == dir + names[..1];
      LookupPlain(dirs, next, names[1..]);
      forall k | 1 <= k <= |names[1..]|
        ensures next + names[1..][..k] == dir + names[..k + 1]
      {
      }
      assert next + names[1..] == dir + names;
      if next in dirs && forall k :: 1 <= k <= |names[1..]| ==> next + names[1..][..k] in dirs {
        forall k | 1 <= k <= |names|
          ensures dir + names[..k] in dirs
        {
          if k > 1 {
            assert dir + names[..k] == next + names[1..][..k - 1];
          }
        }
      }
    }
  }

  /** A name `/d1/.../dn/f` of ordinary pieces is opened below the file system root, whatever
      the working directory: it succeeds iff `d1 .. dn` exist there and `f` is not a directory. */
  lemma OpenAbsolute(st: State, names: seq<string>, f: string)
    requires [] in st.dirs
    requires forall k :: 0 <= k < |names| ==> PlainName(names[k]) && '/' !in names[k]
    requires PlainName(f) && '/' !in f
    ensures OpenTarget(st, Join([""] + names + [f], '/')).Done?
            <==> (forall k :: 1 <= k <= |names| ==> names[..k] in st.dirs) && names + [f] !in st.dirs
    ensures OpenTarget(st, Join([""] + names + [f], '/')).Done? ==>
              OpenTarget(st, Join([""] + names + [f], '/')).value == names + [f]
  {
    var parts := [""] + names + [f];
    forall k | 0 <= k < |parts|
      ensures '/' !in parts[k]
    {
      if 1 <= k < |parts| - 1 {
        assert parts[k] == names[k - 1];
      }
    }
    SplitJoin(parts, '/');
    assert parts[..|parts| - 1] == [""] + names;
    assert ([""] + names)[1..] == names;
    assert parts[|parts| - 1] == f;
    LookupPlain(st.dirs, [], names);
    assert Lookup(st.dirs, [], [""] + names) == Lookup(st.dirs, [], names);
    forall k | 1 <= k <= |names|
      ensures [] + names[..k] == names[..k]
    {
    }
    assert [] + names == names;
  }
}

=== FILE: matcher.dfy ===
/** Selection of the lines of the scanned file that mention one keyword. */
module Matcher {
  import opened Text

  /** The lines that contain `word`, in file order, duplicates kept. */
  function Matches(lines: seq<string>, word: string): (m: seq<string>)
    ensures forall l :: l in m <==> l in lines && Contains(l, word)
    ensures |m| <= |lines|
    decreases |lines|
  {
    if lines == [] then []
    else
      assert lines == [lines[0]] + lines[1..];
      (if Contains(lines[0], word) then [lines[0]] else []) + Matches(lines[1..], word)
  }

  /** Matching commutes with splitting the file: the order of lines is kept. */
  lemma {:induction false} MatchesAppend(a: seq<string>, b: seq<string>, word: string)
    ensures Matches(a + b, word) == Matches(a, word) + Matches(b, word)
    decreases |a|
  {
    if a != [] {
      assert (a + b)[0] == a[0];
      assert (a + b)[1..] == a[1..] + b;
      MatchesAppend(a[1..], b, word);
    } else {
      assert a + b == b;
    }
  }

  /** Every matching line keeps its multiplicity; no other line survives. */
  lemma {:induction false} MatchesMultiplicity(lines: seq<string>, word: string)
    ensures forall l :: multiset(Matches(lines, word))[l] ==
                        if Contains(l, word) then multiset(lines)[l] else 0
    decreases |lines|
  {
    if lines != [] {
      MatchesMultiplicity(lines[1..], word);
      assert lines == [lines[0]] + lines[1..];
      assert multiset(lines) == multiset([lines[0]]) + multiset(lines[1..]);
    }
  }

  /** The list comprehension building the match list, as a loop over the file. */
  method MatchLines(lines: seq<string>, word: string) returns (matchlist: seq<string>)
    ensures matchlist == Matches(lines, word)
  {
    matchlist := [];
    var i := 0;
    while i < |lines|
      invariant 0 <= i <= |lines|
      invariant matchlist == Matches(lines[..i], word)
    {
      MatchesAppend(lines[..i], [lines[i]], word);
      assert lines[..i + 1] == lines[..i] + [lines[i]];
      if Contains(lines[i], word) {
        matchlist := matchlist + [lines[i]];
      }
      i := i + 1;
    }
    assert lines[..|lines|] == lines;
  }
}

=== FILE: outcomes.dfy ===
/** Result types shared by every stage of the pipeline. */
module Outcomes {

  datatype Option<+T> = None | Some(value: T)

  /** The uncaught exceptions that end a run of the script. */
  datatype Crash =
    | QuoteSplitIndexError     // `split("'")[1]` on a line whose only quotes are double quotes
    | EmptyLiteralIndexError   // `string[0]` on an empty quoted literal
    | MkdirEmptyName           // `os.mkdir('')` for an empty path component
    | MkdirOverFile            // `os.mkdir(name)` where `name` is an existing file
    | OpenFailed               // `open(name, ...)` where a directory on the way is missing or `name` is a directory

  /** A step either finishes with a value or ends the whole run with a crash. */
  datatype Outcome<+T> = Done(value: T) | Crashed(crash: Crash)
}

=== FILE: parser.dfy ===
/** `parse_string`: reduces one matched line to a resource path or rejects it. */
module Parser {
  import opened Text
  import opened Outcomes

  /** What `parse_string` does with one line. */
  datatype Parse =
    | Accepted(path: string)   // the returned path; "" is falsy and the caller skips it
    | NotParsed(entry: string) // `False` is returned after `entry` is appended to the rejection log
    | Raised(crash: Crash)     // an IndexError escapes

  /** `s.split("'")[1]`: the text after the first single quote, up to the next one or to the end. */
  function Literal(s: string): (lit: string)
    requires '\'' in s
    ensures var rest := s[IndexOf(s, '\'') + 1..];
            lit == if '\'' in rest then rest[..IndexOf(rest, '\'')] else rest
  {
    var rest := s[IndexOf(s, '\'') + 1..];
    assert Split(s, '\'') == [s[..IndexOf(s, '\'')]] + Split(rest, '\'');
    assert Split(s, '\'')[1] == Split(rest, '\'')[0];
    Split(s, '\'')[1]
  }

  /** The text a non-crashing parse hands on: the path or the rejected entry. */
  function Payload(r: Parse): string
    requires !r.Raised?
  {
    if r.Accepted? then r.path else r.entry
  }

  function ParseString(line: string): (r: Parse)
    // no quote of either kind: rejected, the space-stripped line is the log entry
    ensures '\'' !in line && '"' !in line ==> r == NotParsed(RemoveSpaces(line))
    // double quotes alone: the single-quote split has no second element
    ensures r == Raised(QuoteSplitIndexError) <==> '"' in line && '\'' !in line
    ensures '\'' in line ==>
      var lit := Literal(RemoveSpaces(line));
      && (r == Raised(EmptyLiteralIndexError) <==> lit == "")
      && (lit != "" ==> !r.Raised?)
      && (lit != "" && lit[0] == '.' ==> "." + Payload(r) == lit)
      && (lit != "" && lit[0] != '.' ==> Payload(r) == lit)
      && (lit != "" ==> (r.Accepted? <==> Payload(r) != "/php" && !EndsWith(Payload(r), '/')))
    ensures r.Accepted? ==> r.path != "/php" && !EndsWith(r.path, '/')
  {
    var s := RemoveSpaces(line);
    if '\'' in s || '"' in s then
      if '\'' !in s then Raised(QuoteSplitIndexError)
      else
        var lit := Literal(s);
        if lit == "" then Raised(EmptyLiteralIndexError)
        else
          var t := if lit[0] == '.' then lit[1..] else lit;
          if t == "/php" then NotParsed(t)
          else if EndsWith(t, '/') then NotParsed(t)
          else Accepted(t)
    else NotParsed(s)
  }

  /** The literal of a quote-free prefix, a quote and a quote-free text closed by a quote. */
  lemma LiteralOfClosed(p: string, lit: string, tail: string)
    requires '\'' !in p && '\'' !in lit
    ensures Literal(p + "'" + lit + "'" + tail) == lit
  {
    var s := p + "'" + lit + "'" + tail;
    IndexOfAfter(p, '\'', lit + "'" + tail);
    assert s == p + ['\''] + (lit + "'" + tail);
    var rest := s[|p| + 1..];
    assert rest == lit + ['\''] + tail;
    IndexOfAfter(lit, '\'', tail);
    assert rest[..|lit|] == lit;
  }

  /** The literal of a line whose only single quote opens it: the text runs to the end. */
  lemma LiteralOfOpen(p: string, lit: string)
    requires '\'' !in p && '\'' !in lit
    ensures Literal(p + "'" + lit) == lit
  {
    var s := p + "'" + lit;
    IndexOfAfter(p, '\'', lit);
    assert s == p + ['\''] + lit;
    assert s[|p| + 1..] == lit;
  }

  /** A path written between single quotes, optionally behind one '.', parses back to itself,
      whether or not the closing quote is present. */
  lemma QuotedPathParses(pre: string, dot: bool, path: string, post: string)
    requires '\'' !in pre
    requires '\'' !in path && ' ' !in path
    requires path != "/php" && !EndsWith(path, '/')
    requires !dot ==> path != "" && path[0] != '.'
    ensures var lit := (if dot then "." else "") + path;
            && ParseString(pre + "'" + lit + "'" + post) == Accepted(path)
            && ParseString(pre + "'" + lit) == Accepted(path)
  {
    var lit := (if dot then "." else "") + path;
    var p := RemoveSpaces(pre);
    RemoveSpacesIdentity(lit);
    RemoveSpacesIdentity("'");
    if dot {
      assert lit[1..] == path;
    }

    RemoveSpacesAppend(pre + "'" + lit + "'", post);
    RemoveSpacesAppend(pre + "'" + lit, "'");
    RemoveSpacesAppend(pre + "'", lit);
    RemoveSpacesAppend(pre, "'");
    assert RemoveSpaces(pre + "'" + lit + "'" + post) == p + "'" + lit + "'" + RemoveSpaces(post);
    LiteralOfClosed(p, lit, RemoveSpaces(post));
    LiteralAccepted(pre + "'" + lit + "'" + post, dot, path);

    assert RemoveSpaces(pre + "'" + lit) == p + "'" + lit;
    LiteralOfOpen(p, lit);
    LiteralAccepted(pre + "'" + lit, dot, path);
  }

  /** Once the literal is known, acceptance follows from the path alone. */
  lemma LiteralAccepted(line: string, dot: bool, path: string)
    requires '\'' in RemoveSpaces(line)
    requires Literal(RemoveSpaces(line)) == (if dot then "." else "") + path
    requires path != "/php" && !EndsWith(path, '/')
    requires !dot ==> path != "" && path[0] != '.'
    ensures ParseString(line) == Accepted(path)
  {
    var lit := Literal(RemoveSpaces(line));
    assert lit != "";
    var t := if lit[0] == '.' then lit[1..] else lit;
    if dot {
      assert lit[0] == '.';
      assert t == path;
    } else {
      assert t == path;
    }
  }

  /** Once the literal is known, a `/php` or trailing-'/' literal is logged as it stands. */
  lemma LiteralLogged(line: string, lit: string)
    requires '\'' in RemoveSpaces(line)
    requires Literal(RemoveSpaces(line)) == lit
    requires lit != "" && lit[0] != '.'
    requires lit == "/php" || EndsWith(lit, '/')
    ensures ParseString(line) == NotParsed(lit)
  {
  }
}

=== FILE: scheme.dfy ===
/** The base URL normalisation done before any request is built. */
module Scheme {
  import opened Text

  /** `'http://' + base` unless the first four characters are already `http`. */
  function WithScheme(base: string): (url: string)
    ensures StartsWith(url, "http")
    ensures url == base <==> StartsWith(base, "http")
    ensures url == base || url == "http://" + base
  {
    if StartsWith(base, "http") then base
    else
      assert ("http://" + base)[..4] == "http";
      "http://" + base
  }

  /** Prefixing twice is prefixing once, so redoing it for every keyword is harmless. */
  lemma WithSchemeIdempotent(base: string)
    ensures WithScheme(WithScheme(base)) == WithScheme(base)
  {
  }

  /** The request URL is the base followed directly by the parsed path: no separator is added. */
  function RequestUrl(base: string, path: string): (url: string)
    ensures StartsWith(url, base) && url[|base|..] == path
  {
    base + path
  }
}

=== FILE: text.dfy ===
/** String primitives with the meaning Python gives them. */
module Text {

  /** `needle in hay` on strings: `needle` occurs as a contiguous run. */
  predicate Contains(hay: string, needle: string)
  {
    exists i :: 0 <= i <= |hay| - |needle| && OccursAt(hay, needle, i)
  }

  /** `needle` starts at position `i` of `hay`. */
  predicate OccursAt(hay: string, needle: string, i: int)
  {
    0 <= i && i + |needle| <= |hay| && hay[i..i + |needle|] == needle
  }

  /** `s[:len(p)] == p`: `p` is a prefix of `s`. */
  predicate StartsWith<T(==)>(s: seq<T>, p: seq<T>)
  {
    |p| <= |s| && s[..|p|] == p
  }

  /** `s[-1:] == c`, which is false for the empty string. */
  predicate EndsWith(s: string, c: char)
  {
    |s| > 0 && s[|s| - 1] == c
  }

  /** `s.replace(' ', '')`: every U+0020 is removed and nothing else. */
  function RemoveSpaces(s: string): (r: string)
    ensures ' ' !in r
    ensures forall c :: c != ' ' ==> (c in r <==> c in s)
    ensures |r| <= |s|
  {
    if s == [] then ""
    else
      assert s == [s[0]] + s[1..];
      if s[0] == ' ' then RemoveSpaces(s[1..]) else [s[0]] + RemoveSpaces(s[1..])
  }

  lemma {:induction false} RemoveSpacesAppend(a: string, b: string)
    ensures RemoveSpaces(a + b) == RemoveSpaces(a) + RemoveSpaces(b)
    decreases |a|
  {
    if a == [] {
      assert a + b == b;
    } else {
      assert (a + b)[0] == a[0];
      assert (a + b)[1..] == a[1..] + b;
      RemoveSpacesAppend(a[1..], b);
    }
  }

  lemma {:induction false} RemoveSpacesIdentity(s: string)
    requires ' ' !in s
    ensures RemoveSpaces(s) == s
    decreases |s|
  {
    if s != [] {
      assert s == [s[0]] + s[1..];
      RemoveSpacesIdentity(s[1..]);
    }
  }

  /** Position of the first `c` in `s`. */
  function IndexOf(s: string, c: char): (i: nat)
    requires c in s
    ensures i < |s| && s[i] == c
    ensures c !in s[..i]
    decreases |s|
  {
    if s[0] == c then 0
    else
      assert s == [s[0]] + s[1..];
      var j := IndexOf(s[1..], c);
      assert s[..j + 1] == [s[0]] + s[1..][..j];
      j + 1
  }

  lemma IndexOfAfter(a: string, c: char, b: string)
    requires c !in a
    ensures IndexOf(a + [c] + b, c) == |a|
  {
    var s := a + [c] + b;
    assert s[|a|] == c;
  }

  /** `sep.join(parts)`. */
  function Join(parts: seq<string>, sep: char): string
    requires |parts| > 0
    decreases |parts|
  {
    if |parts| == 1 then parts[0] else parts[0] + [sep] + Join(parts[1..], sep)
  }

  /** `s.split(sep)`: the pieces between occurrences of `sep`, empty ones included. */
  function Split(s: string, sep: char): (parts: seq<string>)
    ensures |parts| > 0
    ensures |parts| == 1 <==> sep !in s
    ensures forall k :: 0 <= k < |parts| ==> sep !in parts[k]
    ensures Join(parts, sep) == s
    decreases |s|
  {
    if sep !in s then [s]
    else
      var i := IndexOf(s, sep);
      assert s == s[..i] + [sep] + s[i + 1..];
      [s[..i]] + Split(s[i + 1..], sep)
  }

  /** Splitting undoes joining when no part contains the separator. */
  lemma {:induction false} SplitJoin(parts: seq<string>, sep: char)
    requires |parts| > 0
    requires forall k :: 0 <= k < |parts| ==> sep !in parts[k]
    ensures Split(Join(parts, sep), sep) == parts
    decreases |parts|
  {
    if |parts| > 1 {
      var rest := Join(parts[1..], sep);
      var s := parts[0] + [sep] + rest;
      IndexOfAfter(parts[0], sep, rest);
      assert s[..|parts[0]|] == parts[0];
      assert s[|parts[0]| + 1..] == rest;
      SplitJoin(parts[1..], sep);
      assert parts == [parts[0]] + parts[1..];
    }
  }

  lemma {:induction false} JoinSnoc(parts: seq<string>, sep: char)
    requires |parts| >= 2
    ensures Join(parts, sep) == Join(parts[..|parts| - 1], sep) + [sep] + parts[|parts| - 1]
    decreases |parts|
  {
    if |parts| == 2 {
      assert parts[..1] == [parts[0]];
    } else {
      JoinSnoc(parts[1..], sep);
      assert parts[1..][..|parts| - 2] == parts[..|parts| - 1][1..];
    }
  }

  lemma FirstMiddleLast<T>(xs: seq<T>)
    requires |xs| >= 2
    ensures [xs[0]] + xs[1..|xs| - 1] + [xs[|xs| - 1]] == xs
  {
  }
}
